=== FILE: README.md ===
# rlox core in Dafny

A model of the core of `rlox`, a Rust port of the clox bytecode interpreter, in four parts:

- **Scanner** (`scanner.dfy`, module `Scanning`; properties in `scanner_props.dfy`, module
  `ScannerProperties`). A byte-level tokenizer. It skips blanks and `//` comments while
  counting lines. It classifies one-byte punctuation and one- or two-byte operators. It scans
  numbers, strings and identifiers, and recognises reserved words with a hand-written trie.
  The state mirrors the Rust struct: the *remaining* source, a cursor `current` into it and
  the `line`. At every `scan_token` the remaining source is re-based past the previous token.
  Two behaviours of the code are kept as they are:
  - The trie compares a fixed window of the remaining source, not the lexeme. So `andy`
    scans as the keyword `and` with lexeme `andy`, and `fork` as `for` (`KeywordPrefixWins`).
  - When the window runs past the end of the source, the Rust slice panics. The model returns
    `SliceOutOfRange` in that case, e.g. for a lone `a` at the end of the input
    (`LoneLetterPanics`).
- **Chunk** (`chunk.dfy`, module `Chunks`). An append-only sequence of opcodes with a bulk
  clear. Its only opcode is `OpReturn`.
- **Disassembler** (`debug.dfy`, module `Disassembler`). A pure function that returns the
  offsets it visits and the lines it would print, rather than printing them. The
  `{offset:04}` rendering is modelled digit by digit, with a parser that reads it back.
- **Virtual machine** (`vm.dfy`, module `Machine`). Fetch, decode and execute over a byte
  code with a constant pool. The stack has `STACK_MAX = 256` slots and a `top` index. `ip` is
  an index into the code. The value type is a type parameter, and its `+ - * /` and negation
  are uninterpreted functions (`Arith`). The panics of the source (`unwrap` on an unknown
  opcode or a missing constant) are faults. So are its undefined behaviours (push on a full
  stack, pop on an empty one, reading past the code). A reference semantics on a plain list
  stack (`Eval`) is proved equal to the slot-array machine.

`bytes.dfy` (module `Bytes`) holds the byte type and `Option`.

In three places the code does less than a complete clox would. The model follows the code:
- The disassembler of `src/debug.rs` knows only `OpReturn`, of width one. It prints neither
  source lines nor `Constant` operands.
- `interpret` only runs the compiler's token loop and returns `Ok(())`. It never executes
  a chunk.
- `Chunk` has no constant pool and no line table.

`src/vm.rs:7` imports `Chunk`, `Opcode` and `Value` from `crate::chunk`. `src/chunk.rs:3` defines
`Opcode`, but with the single variant `OpReturn`, and its `Chunk` (src/chunk.rs:8) holds only a
`Vec<Opcode>`. What `run` needs is missing from the repository: the type `Value`; the variants
`Constant`, `Add`, `Subtract`, `Multiply`, `Divide` and `Negate`; a `constants` field; a byte
encoding of the opcodes; and the `TryFrom<u8>` behind `try_into` at src/vm.rs:109. So the
machine has its own chunk type, `ByteChunk`, and its own `Opcode`. It encodes the opcodes
in the order of the match arms of `run` (src/vm.rs:110-127): `Constant = 0, Add = 1,
Subtract = 2, Multiply = 3, Divide = 4, Negate = 5, Return = 6`.

## Model

| member | source | states |
|---|---|---|
| `Scanning.New` | src/scanner.rs:98-104 | A fresh scanner has consumed nothing and its line is one plus the number of newlines consumed, that is line 1 at position 0. |
| `Scanning.Compare` | src/scanner.rs:211-217 | Consumes one byte and answers true iff a byte remains and it is the expected one. Otherwise it consumes nothing. The line never changes. |
| `Scanning.IsAtEnd` | src/scanner.rs:202-204 | True exactly when no byte is left under the cursor; the `is_empty` test adds nothing to the cursor test. |
| `Scanning.Peek` | src/scanner.rs:219-221 | The byte under the cursor, or `'\0'` when the cursor is at the end. |
| `Scanning.PeekNext` | src/scanner.rs:223-225 | The byte after the cursor, or `'\0'` when none is left. Away from the end it is what `Peek` sees one byte on. |
| `Scanning.Advance` | src/scanner.rs:206-209 | Returns the byte `Peek` sees and moves the cursor on by one. The source and the line are unchanged. |
| `Scanning.MakeToken` | src/scanner.rs:73-79 | `Token::new`: the given kind, the lexeme is the `current` bytes consumed since the re-base, and the line is the scanner's. |
| `Scanning.ErrorToken` | src/scanner.rs:81-87 | `Token::error`: kind `Error`, the message in place of the lexeme, and the scanner's line. |
| `Scanning.ConsumeWhile` | src/scanner.rs:171 | Advances over the longest run of bytes in a class: every byte passed is in the class, and the scan stops at the end or at a byte outside it. |
| `Scanning.SkipWhitespace` | src/scanner.rs:154-168 | The bytes skipped are blanks and `//` comments only, each comment running to the end of its line (`Skips`). The skip stops at a token start: not a blank, not `//`. The line grows by exactly the number of newlines skipped. |
| `Scanning.SkipOne` | src/scanner.rs:156-163 | One round of the loop consumes a single blank, or a `//` comment up to but not including the newline that ends its line (or to the end of the source). It counts exactly the newlines consumed. |
| `Scanning.LineEndOfRun` | src/scanner.rs:163 | A run of non-newline bytes that stops at a newline or at the end of the source is the rest of the line, so the comment loop stops exactly at `LineEnd`. |
| `Scanning.CheckKeyword` | src/scanner.rs:60-62 | Panics (`None`) iff the window reaches past the remaining source. Otherwise the result is `kind` iff the window equals `rest.as_bytes()`, and `Identifier` if not. |
| `Scanning.SliceEqualsString` | src/scanner.rs:61 | The window equals `rest.as_bytes()` iff it matches the rest of the keyword character by character. |
| `Scanning.IdentifierKind` | src/scanner.rs:26-58 | The trie yields `Identifier` or a keyword kind, and cannot panic when six or more bytes remain. Which keyword comes back, and when it panics, is stated by `ScannerProperties.TrieClassifies` and `ScannerProperties.TriePanics`. |
| `Scanning.AfterF` | src/scanner.rs:31-38 | The `f` branch yields only `false`, `for`, `fun` or `Identifier`, and cannot panic with five bytes left. |
| `Scanning.AfterT` | src/scanner.rs:45-51 | The `t` branch yields only `this`, `true` or `Identifier`, and cannot panic with four bytes left. |
| `Scanning.ScanIdentifier` | src/scanner.rs:170-173 | The lexeme is the maximal run of identifier bytes from the token start. It has no newline and the line is unchanged. The kind is `Identifier` or a keyword. It cannot panic when six bytes remain. |
| `Scanning.ScanNumber` | src/scanner.rs:175-187 | The lexeme is a digit run, optionally a `.` and a second digit run. It starts and ends with a digit and has at most one `.`. It is followed by a non-digit, and a `.` plus digit is never left behind an integer lexeme. |
| `Scanning.ScanFraction` | src/scanner.rs:179-184 | A `.` followed by a digit is consumed with the whole digit run after it. The lexeme is then a number literal, and the next byte is not a digit. |
| `Scanning.DigitsAreNumber` | src/scanner.rs:176 | A run of digits is a number lexeme without newlines. |
| `Scanning.FractionIsNumber` | src/scanner.rs:179-184 | Digits, one `.`, then digits form a number lexeme without newlines. |
| `Scanning.StringBody` | src/scanner.rs:190-193 | Stops at the first `"` or the end, passes no `"`, and counts every newline passed. |
| `Scanning.ScanString` | src/scanner.rs:189-200 | The token is a `String` iff a closing quote exists. A `String` lexeme runs from quote to first closing quote inclusive. Otherwise it is an `Unterminated string` error at the end of input. Embedded newlines are counted either way. |
| `Scanning.ScanOperator` | src/scanner.rs:131-146 | `!`, `=`, `<`, `>`: two bytes and the two-byte kind exactly when the next byte is `=`, otherwise one byte and the one-byte kind. The line does not change. |
| `Scanning.ScanSymbol` | src/scanner.rs:119-151 | A non-letter, non-digit byte yields a token of at least one byte with its lexeme, or an error. The token is never `Eof`, an identifier, a keyword or a number. It is a string or the unterminated-string error exactly when the byte is a quote. Lines are counted. |
| `Scanning.ScanToken` | src/scanner.rs:106-152 | The token starts at the first byte after the skipped blanks and comments; its lexeme is exactly the bytes consumed. The source is re-based. `Eof` comes iff nothing remains, with an empty lexeme. Every other token consumes a byte. A panic only happens for an identifier start with fewer than six bytes left. |
| `Scanning.ScanProgress` | src/scanner.rs:111-115 | Every token but `Eof` strictly decreases the bytes left to scan. |
| `Scanning.Tokens` | src/compile.rs:11-22 | The token loop ends: unless it panics, it yields one `Eof`, as the last token, after at most one token per remaining byte. |
| `ScannerProperties.ScanTokenTracks` | src/scanner.rs:106-115 | Across `scan_token`, the remaining source stays a suffix of the input and the line stays one plus the newlines consumed. Consumption never shrinks and grows for every token but `Eof`. |
| `ScannerProperties.TracksAfterSkip` | src/scanner.rs:107-110 | Re-basing the source past the skipped bytes keeps the line in step with the newlines consumed from the whole input. |
| `ScannerProperties.FirstByteDecides` | src/scanner.rs:115-151 | The first byte after the skip decides the class of the token, both ways: an identifier or a keyword iff a letter or `_`, a number iff a digit, a string or the unterminated-string error iff a quote. Never `Eof` when bytes remain. |
| `ScannerProperties.EofIsSticky` | src/scanner.rs:111-113 | After `Eof`, scanning again yields the same `Eof` token and state. |
| `ScannerProperties.EofAtEnd` | src/scanner.rs:111-113 | With only blanks and comments left, the token is `Eof` with an empty lexeme on the line reached by the skip. |
| `ScannerProperties.PunctuationToken` | src/scanner.rs:120-130 | Each of `(){};,.-+/*` is a one-byte token of its own kind. |
| `ScannerProperties.OperatorToken` | src/scanner.rs:131-146 | `!`, `=`, `<`, `>` yield the two-byte kind iff the next byte is `=`, with a lexeme of that length. Otherwise they yield the one-byte kind, including at end of input. |
| `ScannerProperties.UnexpectedCharacterToken` | src/scanner.rs:148-151 | Any other byte is an `Unexpected character` error token that consumes one byte. |
| `ScannerProperties.NumberToken` | src/scanner.rs:117 | A digit at the token start yields a `Number` token whose lexeme is a maximal number literal. |
| `ScannerProperties.StringToken` | src/scanner.rs:147 | A quote at the token start yields the string or unterminated-string token, counting its newlines. |
| `ScannerProperties.IdentifierToken` | src/scanner.rs:116 | The lexeme is a maximal run of identifier bytes. Its kind is a keyword `k` iff the lexeme starts with the spelling of `k`. |
| `ScannerProperties.ReservedPrefixIsKeyword` | src/scanner.rs:26-57 | A lexeme that starts with a reserved word is classified as that keyword. This includes a lexeme equal to it. |
| `ScannerProperties.KeywordIsReservedPrefix` | src/scanner.rs:26-62 | A keyword classification implies the lexeme starts with that keyword's spelling. |
| `ScannerProperties.TrieMatched` | src/scanner.rs:27-55 | A keyword classification implies the remaining source starts with the keyword's spelling. |
| `ScannerProperties.TrieMatchedAfter` | src/scanner.rs:31-51 | The same for the two-level `f` and `t` branches. |
| `ScannerProperties.BranchWord` | src/scanner.rs:60-61 | Once the leading bytes of a word are matched, `check_keyword` on the rest of it yields the kind iff the source starts with the whole word. |
| `ScannerProperties.TrieAnd` | src/scanner.rs:28 | From `a`: `And` iff the source starts with `and`, else `Identifier` or a panic. |
| `ScannerProperties.TrieClass` | src/scanner.rs:29 | From `c`: `Class` iff the source starts with `class`. |
| `ScannerProperties.TrieElse` | src/scanner.rs:30 | From `e`: `Else` iff the source starts with `else`. |
| `ScannerProperties.TrieFalse` | src/scanner.rs:33 | From `fa`: `False` iff the source starts with `false`. |
| `ScannerProperties.TrieFor` | src/scanner.rs:34 | From `fo`: `For` iff the source starts with `for`. |
| `ScannerProperties.TrieFun` | src/scanner.rs:35 | From `fu`: `Fun` iff the source starts with `fun`. |
| `ScannerProperties.TrieIf` | src/scanner.rs:39 | From `i`: `If` iff the source starts with `if`. |
| `ScannerProperties.TrieNil` | src/scanner.rs:40 | From `n`: `Nil` iff the source starts with `nil`. |
| `ScannerProperties.TrieOr` | src/scanner.rs:41 | From `o`: `Or` iff the source starts with `or`. |
| `ScannerProperties.TriePrint` | src/scanner.rs:42 | From `p`: `Print` iff the source starts with `print`. |
| `ScannerProperties.TrieReturn` | src/scanner.rs:43 | From `r`: `Return` iff the source starts with `return`. |
| `ScannerProperties.TrieSuper` | src/scanner.rs:44 | From `s`: `Super` iff the source starts with `super`. |
| `ScannerProperties.TrieThis` | src/scanner.rs:47 | From `th`: `This` iff the source starts with `this`. |
| `ScannerProperties.TrieTrue` | src/scanner.rs:48 | From `tr`: `True` iff the source starts with `true`. |
| `ScannerProperties.TrieVar` | src/scanner.rs:52 | From `v`: `Var` iff the source starts with `var`. |
| `ScannerProperties.TrieWhile` | src/scanner.rs:53 | From `w`: `While` iff the source starts with `while`. |
| `ScannerProperties.KeywordPrefixWins` | src/scanner.rs:28-53 | A word that merely starts with a reserved word scans as that keyword over the whole word (`andy` is `And`). |
| `ScannerProperties.IdentifierWord` | src/scanner.rs:170-172 | A whole input of identifier bytes is one token, classified by the trie on the input, or the trie's panic. |
| `ScannerProperties.LoneLetterPanics` | src/scanner.rs:28 | A lone keyword-initial letter at the end of the input (`a`, `c`, `e`, ...) makes the trie slice out of range. |
| `ScannerProperties.TrieClassifies` | src/scanner.rs:26-62 | For a maximal identifier run, the trie yields keyword `k` iff the remaining source starts with the spelling of `k`, for every keyword. |
| `ScannerProperties.TriePanics` | src/scanner.rs:26-62 | The trie panics iff it enters the branch of a keyword (selected by its first letter, or first two under `f` and `t` once the identifier has two bytes) that is longer than the remaining source. |
| `ScannerProperties.SelectedWindow` | src/scanner.rs:28-53 | In the branch of keyword `k`, the slice compared ends at the length of `k`, so the trie panics iff the remaining source is shorter than `k`. |
| `ScannerProperties.SkipStopsAtFirstToken` | src/scanner.rs:154-168 | Any stretch of blanks and whole comments that ends on a token start ends where `skip_whitespace` stops. The skip is the only such stretch. |
| `ScannerProperties.ShortTrie` | src/scanner.rs:27-53 | With one byte left, every single-level branch of the trie panics. |
| `ScannerProperties.FirstWord` | src/scanner.rs:106-116 | An input starting with a letter or `_` scans its first token with `identifier` from position 1 on line 1. |
| `Chunks.New` | src/chunk.rs:13-17 | A new chunk has no code. |
| `Chunks.Write` | src/chunk.rs:19-21 | Appends exactly one opcode at the end. Length grows by one and every earlier element is unchanged. |
| `Chunks.Free` | src/chunk.rs:23-25 | Leaves the code empty, as a new chunk. Freeing an empty chunk changes nothing. |
| `Chunks.WriteAllAppends` | src/chunk.rs:19-21 | Successive writes leave the old code followed by exactly the written opcodes, in order. |
| `Chunks.FreeAfterWrites` | src/chunk.rs:23-25 | Whatever was written, `free` gives back a new chunk. Writes into a new chunk give as many opcodes as written. |
| `Disassembler.Decimal` | src/debug.rs:18 | The decimal spelling of the offset has only digits, no leading zero, and exactly as many digits as the value needs. |
| `Disassembler.ParseDecimalOfDecimal` | src/debug.rs:18 | Reading the decimal spelling back gives the offset. |
| `Disassembler.ParseLeadingZeros` | src/debug.rs:18 | Zero padding does not change the value read back. |
| `Disassembler.Pad4` | src/debug.rs:18 | `{offset:04}` is all digits and reads back as the offset. It is exactly four digits below 10000, and the plain decimal spelling from 10000 on. |
| `Disassembler.Text` | src/debug.rs:9-27 | The header line is ` == `, the chunk's name, then ` ==`. An instruction line is the `{offset:04}` digits, a space, then the mnemonic. |
| `Disassembler.Mnemonic` | src/debug.rs:21-23 | Every opcode prints under an `OP_` name; `OpReturn` prints as `OP_RETURN`. |
| `Disassembler.SimpleInstruction` | src/debug.rs:26-29 | Prints the name and moves the offset forward by exactly one byte. |
| `Disassembler.DisassembleInstruction` | src/debug.rs:17-24 | The instruction at an offset inside the code renders as that offset and its mnemonic, and the next offset is one further (`OpReturn` has width one). |
| `Disassembler.Walk` | src/debug.rs:10-13 | From an offset, the loop visits every following offset once, in order, and renders one line for each. |
| `Disassembler.Disassemble` | src/debug.rs:8-14 | The header comes first. For n instructions the visited offsets are exactly 0..n-1 and n instruction lines follow, line i+1 for offset i. |
| `Disassembler.OffsetsAscend` | src/debug.rs:10-13 | Visited offsets rise strictly, and an offset is visited iff it is below `code.len()`. The walk starts at 0 and stops exactly at the end. |
| `Disassembler.EmptyChunkHeaderOnly` | src/debug.rs:9-11 | An empty chunk renders only the header line. |
| `Disassembler.LineStartsWithPaddedOffset` | src/debug.rs:18 | At every offset, the instruction line begins with the `{offset:04}` digits, which read back as the offset, then a space. There are exactly four digits below offset 10000. |
| `Disassembler.DisassembleAfterWrite` | src/debug.rs:8-14 | Writing one more opcode adds exactly one line to the listing, for the new offset. |
| `Machine.Decode` | src/vm.rs:109 | A byte decodes iff it is below 7, and it decodes to the opcode whose encoding it is. |
| `Machine.Init` | src/vm.rs:131-133 | `reset_stack` empties the stack and leaves the chunk and `ip` alone. |
| `Machine.Push` | src/vm.rs:69-75 | On a stack that is not full, the new stack is the old one with the value on top. The chunk and `ip` are unchanged. |
| `Machine.Pop` | src/vm.rs:77-83 | On a non-empty stack, the old stack is the new one with the returned value on top. |
| `Machine.PushThenPop` | src/vm.rs:69-83 | A pop right after a push returns the pushed value and restores the previous stack and `top`. |
| `Machine.ReadByte` | src/vm.rs:136-142 | Returns `code[ip]` and advances `ip` by exactly one. The stack is untouched. |
| `Machine.ReadConstant` | src/vm.rs:144-147 | Reads an index byte and advances `ip` by one. It yields `constants[index]` iff the index is in the pool, else the `unwrap` failure. |
| `Machine.ExecConstant` | src/vm.rs:111-114 | `Constant` pushes the constant named by its operand byte. It fails on a missing operand byte, an index out of the pool, or a full stack. |
| `Machine.ExecBinary` | src/vm.rs:86-91 | A binary op needs two values. It pops `b` then `a` and pushes `a op b`: height drops by one and lower slots are unchanged. |
| `Machine.ExecNegate` | src/vm.rs:119-122 | `Negate` replaces the top value with its negation, keeping the height and lower slots. It fails on an empty stack. |
| `Machine.ExecReturn` | src/vm.rs:123-126 | `Return` pops the top value and halts with it. It fails on an empty stack. |
| `Machine.Step` | src/vm.rs:109-127 | Each step that goes on keeps the chunk and moves `ip` forward. Running off the code and an undecodable byte are faults. |
| `Machine.Execute` | src/vm.rs:94-128 | The loop ends. It returns a value only if a `Return` byte lies ahead of `ip`. |
| `Machine.Run` | src/vm.rs:85-129 | Running a chunk gives what the list-stack semantics `Eval` gives from its first byte with an empty stack, whatever state the machine was in. An empty chunk overruns. A returned value needs a `Return` byte in the code. |
| `Machine.ExecuteMatchesEval` | src/vm.rs:85-129 | The slot array with its `top` index computes exactly what the same byte code computes on a plain list stack, faults included. |
| `Machine.StepConstant` | src/vm.rs:111-114 | `Constant` advances `ip` by two in total and pushes `constants[code[ip+1]]`. |
| `Machine.StepBinary` | src/vm.rs:115-118 | `Add`, `Subtract`, `Multiply`, `Divide` apply their operator to the second value from the top (left) and the top value (right). |
| `Machine.ReturnEndsRun` | src/vm.rs:123-126 | At a `Return`, the run ends with the top value, whatever follows. On an empty stack it faults. |
| `Machine.TwoConstants` | src/vm.rs:86-91 | `Constant i; Constant j; op; Return` returns `constants[i] op constants[j]`, with the first-loaded constant as left operand. |
| `Machine.Interpret` | src/vm.rs:64-67 | `interpret` never reports an error. It fails only by the scanner's panic, and succeeds iff the token loop over the source completes. |

## Left out

- Printing. Every `println!`/`print!` is replaced by returned values: the listing of the disassembler, and the value `Return` pops.
- The token dump of `src/compile.rs:13-19` is not modelled. Only its loop to `Eof` is, as `Scanning.Tokens`.
- `Machine.Interpret`: does not model the `str::from_utf8(..).unwrap()` of `src/compile.rs:19`. That call panics on any lexeme that is not valid UTF-8: a string literal holding invalid UTF-8, or a non-ASCII letter byte. For example, `é` (bytes C3 A9) passes the `is_alphabetic` test at `src/scanner.rs:115` as the one-byte identifier C3, which `from_utf8` rejects. The model treats the string literal as scanning successfully; with its ASCII-only classes (see below) it scans the byte C3 as an unexpected character.
- The debug-build trace inside `run` (`src/vm.rs:95-107`) is not modelled: it prints only and does not affect control flow.
- The `Display` and `Error` impls (`src/vm.rs:14-49`) are not modelled. `CompileError` and `RuntimeError` appear only as values `interpret` never returns.
- `src/main.rs` is not part of this model. It is a driver, and it calls `add_constant` and a two-argument `write` that `src/chunk.rs` does not define.
- Floating-point semantics of `Value` (division by zero, NaN, rounding) are not modelled. Values are a type parameter with uninterpreted operations.
- Raw pointers, lifetimes and borrows are replaced by indices into sequences.
  - Stack overflow, stack underflow and reading past the code are undefined behaviour in the source. The machine reports them as faults.
  - `Push` and `Pop` themselves keep the source's unchecked contract as preconditions.
- The `chunk` and `ip` fields are never initialised in the source. `Machine.Run` takes the chunk as a parameter and starts at `ip = 0` with a reset stack.
- Unicode classes are not modelled. `is_alphabetic`/`is_alphanumeric` on bytes 0x80-0xFF (read as Latin-1 characters, many of them alphabetic) are restricted to ASCII. Such bytes scan as unexpected characters in the model.
- Integer widths are not modelled. `line` and `current` are unbounded; a `usize` overflow needs inputs no machine holds.
- `Scanning.Advance` requires a byte under the cursor. The index at `src/scanner.rs:208` panics otherwise, and every caller checks `is_at_end` or peeks a byte first.
- `Scanning.PeekNext` requires a non-empty source. The Rust `len() - 1` would underflow on an empty one, but it is only called after a byte has been seen.
- `Machine.Decode`: no file of the repository gives `Opcode` the variants `run` matches on, a byte encoding or a `TryFrom<u8>` (see above), so the byte values are not fixed by the code. The model numbers the opcodes 0..6 in the order of the match arms of `run`.
- `Scanning.IdentifierKind`, `Scanning.AfterF`, `Scanning.AfterT`: their own contracts state only the range of the result and when no panic is possible. Which keyword comes back, and exactly when the trie panics, is proved about them in `ScannerProperties` (`TrieClassifies`, `TriePanics`, `SelectedWindow` and one lemma per branch), where the case analysis lives.
- `Scanning.ScanIdentifier`: its contract fixes the lexeme, but of the kind it states only that it is `Identifier` or a keyword, and that no panic happens with six bytes left. `ScannerProperties.IdentifierToken` and `ScannerProperties.TriePanics` state the kind and the panic exactly.
- `Scanning.ScanSymbol`: its contract states the shape and the class of every symbol token, not the kind chosen for each byte. The kind per byte is stated against an independent table by `ScannerProperties.PunctuationToken`, `OperatorToken`, `StringToken` and `UnexpectedCharacterToken`.

=== FILE: bytes.dfy ===
/** Bytes and the option type shared by the scanner and the virtual machine. */
module Bytes {

  /** An unsigned 8-bit value: the element type of source text and of bytecode. */
  type byte = b: int | 0 <= b < 256

  /** A value that may be absent. */
  datatype Option<+T> = None | Some(value: T)

  /** The bytes of a string whose characters all fit in one byte, as `str::as_bytes`
      yields for ASCII text. */
  function FromString(s: string): (r: seq<byte>)
    requires forall i | 0 <= i < |s| :: s[i] as int < 256
    ensures |r| == |s|
    ensures forall i | 0 <= i < |r| :: r[i] as char == s[i] && r[i] == s[i] as int
  {
    seq(|s|, i requires 0 <= i < |s| => s[i] as int)
  }
}

=== FILE: chunk.dfy ===
/** The chunk of chunk.rs: an append-only sequence of opcodes with a bulk clear. */
module Chunks {

  /** The opcodes a chunk holds; `OpReturn` is the only one. */
  datatype Opcode = OpReturn

  datatype Chunk = Chunk(code: seq<Opcode>)

  /** `Chunk::new`: a chunk with no code. */
  function New(): (c: Chunk)
    ensures |c.code| == 0
  {
    Chunk([])
  }

  /** `Chunk::write`: appends one opcode at the end and keeps everything written before. */
  function Write(c: Chunk, op: Opcode): (r: Chunk)
    ensures |r.code| == |c.code| + 1
    ensures r.code[|c.code|] == op
    ensures forall i | 0 <= i < |c.code| :: r.code[i] == c.code[i]
  {
    Chunk(c.code + [op])
  }

  /** `Chunk::free`: clears the code; freeing a chunk that is already empty changes nothing. */
  function Free(c: Chunk): (r: Chunk)
    ensures r == New()
    ensures c.code == [] ==> r == c
  {
    Chunk([])
  }

  /** The chunk after writing `ops` one by one, first to last. */
  function WriteAll(c: Chunk, ops: seq<Opcode>): Chunk
    decreases |ops|
  {
    if ops == [] then c else WriteAll(Write(c, ops[0]), ops[1..])
  }

  /** Successive writes leave exactly the written opcodes, in order, after the old code. */
  lemma {:induction false} WriteAllAppends(c: Chunk, ops: seq<Opcode>)
    ensures WriteAll(c, ops).code == c.code + ops
    decreases |ops|
  {
    if ops != [] {
      var next := Write(c, ops[0]);
      WriteAllAppends(next, ops[1..]);
      assert next.code == c.code + [ops[0]];
      assert [ops[0]] + ops[1..] == ops;
      assert c.code + [ops[0]] + ops[1..] == c.code + ([ops[0]] + ops[1..]);
    }
  }

  /** Freeing after any sequence of writes gives back a fresh chunk. */
  lemma FreeAfterWrites(c: Chunk, ops: seq<Opcode>)
    ensures Free(WriteAll(c, ops)) == New()
    ensures |WriteAll(New(), ops).code| == |ops|
  {
    WriteAllAppends(New(), ops);
  }
}

=== FILE: debug.dfy ===
/** The disassembler of debug.rs as a pure function: instead of printing, it returns the
    offsets it visits and the lines it would print. */
module Disassembler {
  import opened Chunks

  // ---------------------------------------------------------------------------
  // Decimal rendering, as the `{offset:04}` format produces it
  // ---------------------------------------------------------------------------

  predicate IsDigitChar(c: char) {
    '0' <= c <= '9'
  }

  predicate AllDigits(s: string) {
    forall i | 0 <= i < |s| :: IsDigitChar(s[i])
  }

  function DigitChar(d: nat): (c: char)
    requires d < 10
    ensures IsDigitChar(c) && c as int - '0' as int == d
  {
    ('0' as int + d) as char
  }

  function Pow10(k: nat): (p: nat)
    ensures p >= 1
  {
    if k == 0 then 1 else 10 * Pow10(k - 1)
  }

  lemma {:induction false} Pow10Monotone(i: nat, j: nat)
    requires i <= j
    ensures Pow10(i) <= Pow10(j)
    decreases j
  {
    if i < j {
      Pow10Monotone(i, j - 1);
    }
  }

  /** The shortest decimal spelling of `n`: no leading zero, and exactly as many digits
      as `n` needs. */
  function Decimal(n: nat): (s: string)
    ensures 1 <= |s| && AllDigits(s)
    ensures n < Pow10(|s|)
    ensures |s| == 1 || Pow10(|s| - 1) <= n
    decreases n
  {
    if n < 10 then [DigitChar(n)] else Decimal(n / 10) + [DigitChar(n % 10)]
  }

  /** The number a string of decimal digits denotes, most significant digit first. */
  function ParseDecimal(s: string): nat
    requires AllDigits(s)
  {
    if s == [] then 0
    else 10 * ParseDecimal(s[..|s| - 1]) + (s[|s| - 1] as int - '0' as int)
  }

  lemma {:induction false} ParseDecimalOfDecimal(n: nat)
    ensures ParseDecimal(Decimal(n)) == n
    decreases n
  {
    if n >= 10 {
      var s := Decimal(n);
      assert s[..|s| - 1] == Decimal(n / 10);
      ParseDecimalOfDecimal(n / 10);
    }
  }

  function Zeros(k: nat): (z: string)
    ensures |z| == k && AllDigits(z)
  {
    seq(k, _ => '0')
  }

  /** Leading zeros do not change the value of a digit string. */
  lemma {:induction false} ParseLeadingZeros(k: nat, s: string)
    requires AllDigits(s)
    ensures ParseDecimal(Zeros(k) + s) == ParseDecimal(s)
    decreases |s|
  {
    if s == [] {
      ParseZeros(k);
      assert Zeros(k) + s == Zeros(k);
    } else {
      var t := Zeros(k) + s;
      assert t[..|t| - 1] == Zeros(k) + s[..|s| - 1];
      ParseLeadingZeros(k, s[..|s| - 1]);
    }
  }

  lemma {:induction false} ParseZeros(k: nat)
    ensures ParseDecimal(Zeros(k)) == 0
  {
    if k > 0 {
      assert Zeros(k)[..k - 1] == Zeros(k - 1);
      ParseZeros(k - 1);
    }
  }

  /** `{offset:04}`: the decimal spelling of `n` padded with zeros on the left to at
      least four characters. */
  function Pad4(n: nat): (s: string)
    ensures AllDigits(s) && |s| >= 4
    ensures n < 10000 ==> |s| == 4
    ensures n >= 10000 ==> s == Decimal(n)
    ensures ParseDecimal(s) == n
  {
    var d := Decimal(n);
    ParseDecimalOfDecimal(n);
    DecimalWidth(n);
    if |d| >= 4 then
      d
    else
      ParseLeadingZeros(4 - |d|, d);
      Zeros(4 - |d|) + d
  }

  /** A number below 10000 needs at most four digits. */
  lemma DecimalWidth(n: nat)
    ensures n < 10000 ==> |Decimal(n)| <= 4
  {
    var d := Decimal(n);
    if n < 10000 && |d| > 4 {
      Pow10Monotone(4, |d| - 1);
    }
  }

  // ---------------------------------------------------------------------------
  // The offset walk
  // ---------------------------------------------------------------------------

  /** One printed line: the header, or an instruction with the offset it was found at. */
  datatype Line = Heading(name: string) | Instruction(offset: nat, mnemonic: string)

  /** The characters of a printed line: `" == {name} =="` for the header, and
      `"{offset:04} {mnemonic}"` for an instruction. */
  function Text(line: Line): (t: string)
    ensures line.Heading? ==>
      && |t| == |line.name| + 7
      && t[..4] == " == " && t[4..(|t| - 3)] == line.name && t[(|t| - 3)..] == " =="
    ensures line.Instruction? ==>
      var p := Pad4(line.offset);
      && |t| == |p| + 1 + |line.mnemonic|
      && t[..(|p|)] == p && t[|p|] == ' ' && t[(|p| + 1)..] == line.mnemonic
  {
    match line
    case Heading(name) => " == " + name + " =="
    case Instruction(offset, mnemonic) => Pad4(offset) + " " + mnemonic
  }

  /** What `disassemble` returns in place of its output: the offsets it visits and the
      lines it prints, the header first. */
  datatype Listing = Listing(offsets: seq<nat>, lines: seq<Line>)

  /** The mnemonic `disassemble_instruction` prints for an opcode: its name in the
      `OP_` spelling. */
  function Mnemonic(op: Opcode): (m: string)
    ensures |m| > 3 && m[..3] == "OP_"
    ensures op == OpReturn ==> m == "OP_RETURN"
  {
    match op
    case OpReturn => "OP_RETURN"
  }

  /** `simple_instruction`: the name printed and the offset of the next instruction,
      one byte on. */
  function SimpleInstruction(name: string, offset: nat): (r: (string, nat))
    ensures r.0 == name && r.1 == offset + 1
  {
    (name, offset + 1)
  }

  /** `disassemble_instruction`: the line for the instruction at `offset`, and the offset
      of the next one. The loop only calls it below the end of the code, where `get`
      cannot fail. */
  function DisassembleInstruction(chunk: Chunk, offset: nat): (r: (Line, nat))
    requires offset < |chunk.code|
    ensures r.1 == offset + 1
    ensures r.0 == Instruction(offset, Mnemonic(chunk.code[offset]))
  {
    var (name, next) := match chunk.code[offset] {
      case OpReturn => SimpleInstruction("OP_RETURN", offset)
    };
    (Instruction(offset, name), next)
  }

  /** The `while offset < code.len()` loop, from `offset` to the end of the code. */
  function Walk(chunk: Chunk, offset: nat): (r: Listing)
    requires offset <= |chunk.code|
    ensures |r.offsets| == |r.lines| == |chunk.code| - offset
    ensures forall i | 0 <= i < |r.offsets| :: r.offsets[i] == offset + i
    ensures forall i | 0 <= i < |r.lines| ::
      r.lines[i] == Instruction(offset + i, Mnemonic(chunk.code[offset + i]))
    decreases |chunk.code| - offset
  {
    if offset < |chunk.code| then
      var (line, next) := DisassembleInstruction(chunk, offset);
      var rest := Walk(chunk, next);
      Listing([offset] + rest.offsets, [line] + rest.lines)
    else
      Listing([], [])
  }

  /** `disassemble`: the header, then one line per instruction, visiting every offset of
      the code once, in order from 0. */
  function Disassemble(chunk: Chunk, name: string): (r: Listing)
    ensures |r.lines| == |chunk.code| + 1 && r.lines[0] == Heading(name)
    ensures |r.offsets| == |chunk.code|
    ensures forall i | 0 <= i < |r.offsets| :: r.offsets[i] == i
    ensures forall i | 0 <= i < |chunk.code| ::
      r.lines[i + 1] == Instruction(i, Mnemonic(chunk.code[i]))
  {
    var body := Walk(chunk, 0);
    Listing(body.offsets, [Heading(name)] + body.lines)
  }

  // ---------------------------------------------------------------------------
  // Properties of the walk
  // ---------------------------------------------------------------------------

  /** The visited offsets rise strictly, and an offset is visited iff it lies inside the
      code: the walk starts at 0 and stops exactly at `code.len()`. */
  lemma OffsetsAscend(chunk: Chunk, name: string)
    ensures var offs := Disassemble(chunk, name).offsets;
      (forall i, j | 0 <= i < j < |offs| :: offs[i] < offs[j])
      && (forall o: nat :: o in offs <==> o < |chunk.code|)
  {
    var offs := Disassemble(chunk, name).offsets;
    forall o: nat
      ensures o in offs <==> o < |chunk.code|
    {
      if o < |chunk.code| {
        assert offs[o] == o;
      }
    }
  }

  /** An empty chunk prints the header and nothing else. */
  lemma EmptyChunkHeaderOnly(name: string)
    ensures Disassemble(New(), name) == Listing([], [Heading(name)])
  {
    var r := Disassemble(New(), name);
    assert |r.lines| == 1 && |r.offsets| == 0;
  }

  /** Each instruction line opens with the offset written by `{offset:04}` and a space:
      digits that read back as the offset, exactly four of them below 10000. */
  lemma LineStartsWithPaddedOffset(chunk: Chunk, name: string, i: nat)
    requires i < |chunk.code|
    ensures var text := Text(Disassemble(chunk, name).lines[i + 1]); var p := Pad4(i);
      && |text| > |p| && text[..(|p|)] == p && text[|p|] == ' '
      && AllDigits(p) && ParseDecimal(p) == i
      && (i < 10000 ==> |p| == 4)
  {
    assert Disassemble(chunk, name).lines[i + 1] == Instruction(i, Mnemonic(chunk.code[i]));
  }

  /** Writing one more opcode adds exactly one line, for its offset, to the listing. */
  lemma DisassembleAfterWrite(chunk: Chunk, op: Opcode, name: string)
    ensures Disassemble(Write(chunk, op), name).lines
      == Disassemble(chunk, name).lines + [Instruction(|chunk.code|, Mnemonic(op))]
  {
    var a := Disassemble(Write(chunk, op), name).lines;
    var b := Disassemble(chunk, name).lines + [Instruction(|chunk.code|, Mnemonic(op))];
    assert |a| == |b|;
    forall k | 0 <= k < |a|
      ensures a[k] == b[k]
    {
      if k > 0 {
        assert a[k] == Instruction(k - 1, Mnemonic(Write(chunk, op).code[k - 1]));
      }
    }
  }
}

=== FILE: scanner.dfy ===
/**
  The lexical scanner of src/scanner.rs: a byte-level tokenizer over a source slice.

  The Rust scanner keeps a slice `source` of the text still to be scanned and a
  cursor `current` into it; every `scan_token` first skips blanks and `//` comments,
  then re-bases `source` at the first byte of the new token, so a token's lexeme is
  always `source[..current]`. The model keeps exactly that state, as an immutable
  record, and every operation returns the new state.

  Character classes are the ASCII ones; bytes are turned into characters as Rust's
  `byte as char` does.
*/
module Scanning {
  import opened Bytes

  datatype TokenType =
    // Single-character tokens
    | LeftParen | RightParen | LeftBrace | RightBrace
    | Comma | Dot | Minus | Plus | Semicolon | Slash | Star
    // One or two character tokens
    | Bang | BangEqual | Equal | EqualEqual
    | Greater | GreaterEqual | Less | LessEqual
    // Literals
    | Identifier | String | Number
    // Keywords
    | And | Class | Else | False | For | Fun | If | Nil | Or
    | Print | Return | Super | This | True | Var | While
    | Error | Eof

  /** A token: its kind, its bytes (or the message of an error token) and its line. */
  datatype Token = Token(kind: TokenType, lexeme: seq<byte>, line: nat)

  /** The scanner state: the remaining source, the cursor into it and the current line. */
  datatype Scanner = Scanner(source: seq<byte>, current: nat, line: nat) {
    predicate Valid() {
      current <= |source|
    }
  }

  /** The outcome of scanning one token. `SliceOutOfRange` stands for the panic of an
      out-of-range slice in the keyword trie. */
  datatype Scanned = Scanned(scanner: Scanner, token: Token) | SliceOutOfRange

  const UnexpectedCharacter: seq<byte> := FromString("Unexpected character")
  const UnterminatedString: seq<byte> := FromString("Unterminated string")

  // ---------------------------------------------------------------------------
  // Character classes (ASCII)

  predicate IsAlpha(c: char) {
    'a' <= c <= 'z' || 'A' <= c <= 'Z'
  }

  predicate IsDigit(c: char) {
    '0' <= c <= '9'
  }

  /** A byte that may continue an identifier: `is_alphanumeric() || == '_'`. */
  predicate IsIdentChar(c: char) {
    IsAlpha(c) || IsDigit(c) || c == '_'
  }

  /** A byte that may start an identifier: `is_alphabetic() || == '_'`. */
  predicate IsIdentStart(c: char) {
    IsAlpha(c) || c == '_'
  }

  predicate IsNotNewline(c: char) {
    c != '\n'
  }

  /** The bytes `scan_token` skips between tokens (not counting comments). */
  predicate IsBlank(c: char) {
    c == ' ' || c == '\r' || c == '\t' || c == '\n'
  }

  // ---------------------------------------------------------------------------
  // Line counting

  /** The number of newline bytes in `bytes`. */
  function Newlines(bytes: seq<byte>): (n: nat)
    ensures n <= |bytes|
  {
    if bytes == [] then 0
    else (if bytes[0] as char == '\n' then 1 else 0) + Newlines(bytes[1..])
  }

  lemma {:induction false} NewlinesAppend(a: seq<byte>, b: seq<byte>)
    ensures Newlines(a + b) == Newlines(a) + Newlines(b)
  {
    if a == [] {
      assert a + b == b;
    } else {
      assert (a + b)[1..] == a[1..] + b;
      NewlinesAppend(a[1..], b);
    }
  }

  lemma NewlinesSplit(bytes: seq<byte>, i: nat, j: nat, k: nat)
    requires i <= j <= k <= |bytes|
    ensures Newlines(bytes[i..k]) == Newlines(bytes[i..j]) + Newlines(bytes[j..k])
  {
    assert bytes[i..k] == bytes[i..j] + bytes[j..k];
    NewlinesAppend(bytes[i..j], bytes[j..k]);
  }

  lemma {:induction false} NoNewlines(bytes: seq<byte>)
    requires forall i | 0 <= i < |bytes| :: bytes[i] as char != '\n'
    ensures Newlines(bytes) == 0
  {
    if bytes != [] {
      NoNewlines(bytes[1..]);
    }
  }

  // ---------------------------------------------------------------------------
  // Position tracking over the whole input

  /** How many bytes of `input` a scanner over it has consumed. */
  function Consumed(input: seq<byte>, s: Scanner): int {
    |input| - |s.source| + s.current
  }

  /** `s` scans a suffix of `input`, and its line is one more than the number of
      newlines consumed so far. */
  ghost predicate Tracks(input: seq<byte>, s: Scanner) {
    && s.Valid()
    && |s.source| <= |input|
    && s.source == input[|input| - |s.source|..]
    && s.line == 1 + Newlines(input[..Consumed(input, s)])
  }

  // ---------------------------------------------------------------------------
  // Cursor primitives

  /** `Scanner::new`: a scanner over `source`, before its first byte, on line 1. */
  function New(source: seq<byte>): (s: Scanner)
    ensures s.Valid() && Tracks(source, s)
    ensures Consumed(source, s) == 0
  {
    Scanner(source, 0, 1)
  }

  /** `is_at_end`: no byte is left under the cursor; the emptiness test of the source is
      subsumed by the cursor test. */
  function IsAtEnd(s: Scanner): (b: bool)
    ensures b <==> s.current >= |s.source|
  {
    |s.source| == 0 || s.current >= |s.source|
  }

  /** `peek`: the byte under the cursor, or `'\0'` at the end. */
  function Peek(s: Scanner): (c: char)
    ensures !IsAtEnd(s) ==> c == s.source[s.current] as char
    ensures IsAtEnd(s) ==> c == '\0'
  {
    if s.current < |s.source| then s.source[s.current] as char else '\0'
  }

  /** `peek_next`: what `peek` would see one byte on, or `'\0'`. The Rust test is
      `current < len - 1` on `usize`, which needs a non-empty source; every caller has
      just peeked a byte. */
  function PeekNext(s: Scanner): (c: char)
    requires |s.source| > 0
    ensures s.current + 1 < |s.source| ==> c == s.source[s.current + 1] as char
    ensures s.current + 1 >= |s.source| ==> c == '\0'
    ensures !IsAtEnd(s) ==> c == Peek(s.(current := s.current + 1))
  {
    if s.current < |s.source| - 1 then s.source[s.current + 1] as char else '\0'
  }

  /** `advance`: consumes the byte under the cursor and returns what `peek` saw; the
      source and the line stay as they are. */
  function Advance(s: Scanner): (r: (Scanner, char))
    requires s.current < |s.source|
    ensures r.1 == Peek(s)
    ensures r.0.Valid() && r.0.source == s.source && r.0.line == s.line
    ensures r.0.current == s.current + 1
  {
    (s.(current := s.current + 1), s.source[s.current] as char)
  }

  /** Consumes the byte under the cursor only when it is `expected`. */
  function Compare(s: Scanner, expected: char): (r: (Scanner, bool))
    requires s.Valid()
    ensures r.1 <==> s.current < |s.source| && s.source[s.current] as char == expected
    ensures r.0.source == s.source && r.0.line == s.line
    ensures r.0.current == (if r.1 then s.current + 1 else s.current)
  {
    if IsAtEnd(s) then (s, false)
    else if s.source[s.current] as char != expected then (s, false)
    else (s.(current := s.current + 1), true)
  }

  /** `Token::new`: the token whose lexeme is everything consumed since the re-base, on
      the scanner's line. */
  function MakeToken(s: Scanner, kind: TokenType): (tok: Token)
    requires s.Valid()
    ensures tok.kind == kind && tok.line == s.line
    ensures |tok.lexeme| == s.current && tok.lexeme == s.source[..(s.current)]
  {
    Token(kind, s.source[..s.current], s.line)
  }

  /** `Token::error`: an error token carrying a message instead of a lexeme, on the
      scanner's line. */
  function ErrorToken(s: Scanner, message: seq<byte>): (tok: Token)
    ensures tok.kind == Error && tok.lexeme == message && tok.line == s.line
  {
    Token(Error, message, s.line)
  }

  /** Advances over the longest run of bytes satisfying `p`. This is the loop
      `while p(peek()) { advance() }` for classes that reject `'\0'` (identifier
      characters, digits) and the loop `while p(peek()) && !is_at_end()` for the
      comment body. */
  function ConsumeWhile(s: Scanner, p: char -> bool): (r: Scanner)
    requires s.Valid()
    ensures r.Valid() && r.source == s.source && r.line == s.line
    ensures s.current <= r.current
    ensures forall k | s.current <= k < r.current :: p(s.source[k] as char)
    ensures r.current == |s.source| || !p(s.source[r.current] as char)
    decreases |s.source| - s.current
  {
    if !IsAtEnd(s) && p(Peek(s)) then ConsumeWhile(Advance(s).0, p) else s
  }

  // ---------------------------------------------------------------------------
  // Whitespace and comments

  /** The cursor sits on a byte that starts a token or on the end of the source. */
  predicate AtTokenStart(s: Scanner) {
    && !IsBlank(Peek(s))
    && !(Peek(s) == '/' && PeekNext(s) == '/')
  }

  /** Where the line through `i` ends: the first newline at or after `i`, or the end of
      the source. A `//` comment at `i` runs up to there. */
  function LineEnd(source: seq<byte>, i: nat): (e: nat)
    requires i <= |source|
    ensures i <= e <= |source|
    ensures i < |source| && source[i] as char != '\n' ==> i < e
    decreases |source| - i
  {
    if i == |source| || source[i] as char == '\n' then i else LineEnd(source, i + 1)
  }

  /** A run that stops at the first newline or at the end of the source is the rest of
      the line. */
  lemma {:induction false} LineEndOfRun(source: seq<byte>, i: nat, e: nat)
    requires i <= e <= |source|
    requires forall k | i <= k < e :: source[k] as char != '\n'
    requires e == |source| || source[e] as char == '\n'
    ensures LineEnd(source, i) == e
    decreases e - i
  {
    if i < e {
      LineEndOfRun(source, i + 1, e);
    }
  }

  /** `source[i..j]` is made of blanks and `//` comments only, each comment running to
      the end of its line: exactly what the `skip_whitespace` loop may pass over. */
  predicate Skips(source: seq<byte>, i: nat, j: nat)
    requires i <= j <= |source|
    decreases j - i
  {
    if i == j then true
    else if IsBlank(source[i] as char) then Skips(source, i + 1, j)
    else
      && i + 1 < |source| && source[i] as char == '/' && source[i + 1] as char == '/'
      && LineEnd(source, i) <= j
      && Skips(source, LineEnd(source, i), j)
  }

  /** `skip_whitespace`: skips blanks and `//` comments, counting newlines, and stops at
      the first byte that starts a token. */
  function SkipWhitespace(s: Scanner): (r: Scanner)
    requires s.Valid()
    ensures r.Valid() && r.source == s.source && s.current <= r.current
    ensures Skips(s.source, s.current, r.current) && AtTokenStart(r)
    ensures r.line == s.line + Newlines(s.source[s.current..(r.current)])
    decreases |s.source| - s.current
  {
    if AtTokenStart(s) then s
    else
      var next := SkipOne(s);
      var r := SkipWhitespace(next);
      NewlinesSplit(s.source, s.current, next.current, r.current);
      r
  }

  /** One round of the `skip_whitespace` loop away from a token start: a blank is
      consumed, a newline also bumping the line; a `//` comment is consumed up to, not
      including, its newline, which the next round skips as a blank. */
  function SkipOne(s: Scanner): (r: Scanner)
    requires s.Valid() && !AtTokenStart(s)
    ensures r.Valid() && r.source == s.source && s.current < r.current
    ensures IsBlank(Peek(s)) ==> r.current == s.current + 1
    ensures !IsBlank(Peek(s)) ==> r.current == LineEnd(s.source, s.current)
    ensures r.line == s.line + Newlines(s.source[s.current..(r.current)])
  {
    if IsBlank(Peek(s)) then
      assert s.source[s.current..s.current + 1] == [s.source[s.current]];
      Advance(s.(line := s.line + if Peek(s) == '\n' then 1 else 0)).0
    else
      var r := ConsumeWhile(s, IsNotNewline);
      LineEndOfRun(s.source, s.current, r.current);
      NoNewlines(s.source[s.current..r.current]);
      r
  }

  /** The remaining source re-based at the start of the next token. */
  function Rest(s: Scanner): seq<byte>
    requires s.Valid()
  {
    s.source[SkipWhitespace(s).current..]
  }

  // ---------------------------------------------------------------------------
  // Keywords

  /** The slice `source[start..end]` compared with the rest of a keyword; `None` when
      the slice would run past the end of the source (a panic in Rust). */
  function CheckKeyword(source: seq<byte>, start: nat, end: nat, rest: string, kind: TokenType): (r: Option<TokenType>)
    requires start <= end
    requires forall i | 0 <= i < |rest| :: rest[i] as int < 256
    ensures r.None? <==> end > |source|
    ensures r.Some? ==> r.value == kind || r.value == Identifier
    ensures r.Some? && kind != Identifier ==> (r.value == kind <==> source[start..end] == FromString(rest))
  {
    if end > |source| then None
    else if source[start..end] == FromString(rest) then Some(kind)
    else Some(Identifier)
  }

  lemma SliceEqualsString(source: seq<byte>, start: nat, end: nat, rest: string)
    requires start <= end <= |source| && end - start == |rest|
    requires forall i | 0 <= i < |rest| :: rest[i] as int < 256
    ensures source[start..end] == FromString(rest) <==>
      forall i | 0 <= i < |rest| :: source[start + i] as char == rest[i]
  {
    if forall i | 0 <= i < |rest| :: source[start + i] as char == rest[i] {
      assert forall i | 0 <= i < |rest| :: source[start..end][i] == FromString(rest)[i];
    }
  }

  /** `TokenType::identifier`: the hand-rolled keyword trie. It inspects the remaining
      source, not the lexeme `source[..current]`, so it only looks at a fixed window. */
  function IdentifierKind(source: seq<byte>, current: nat): (r: Option<TokenType>)
    requires 1 <= current <= |source|
    ensures |source| >= 6 ==> r.Some?
    ensures r.Some? ==> r.value == Identifier || KeywordKind(r.value)
  {
    match source[0] as char
    case 'a' => CheckKeyword(source, 1, 3, "nd", And)
    case 'c' => CheckKeyword(source, 1, 5, "lass", Class)
    case 'e' => CheckKeyword(source, 1, 4, "lse", Else)
    case 'f' => if current > 1 then AfterF(source) else Some(Identifier)
    case 'i' => CheckKeyword(source, 1, 2, "f", If)
    case 'n' => CheckKeyword(source, 1, 3, "il", Nil)
    case 'o' => CheckKeyword(source, 1, 2, "r", Or)
    case 'p' => CheckKeyword(source, 1, 5, "rint", Print)
    case 'r' => CheckKeyword(source, 1, 6, "eturn", Return)
    case 's' => CheckKeyword(source, 1, 5, "uper", Super)
    case 't' => if current > 1 then AfterT(source) else Some(Identifier)
    case 'v' => CheckKeyword(source, 1, 3, "ar", Var)
    case 'w' => CheckKeyword(source, 1, 5, "hile", While)
    case _ => Some(Identifier)
  }

  /** The trie below `f`, for an identifier of two or more bytes. */
  function AfterF(source: seq<byte>): (r: Option<TokenType>)
    requires 2 <= |source|
    ensures |source| >= 5 ==> r.Some?
    ensures r.Some? ==> r.value in {Identifier, False, For, Fun}
  {
    match source[1] as char
    case 'a' => CheckKeyword(source, 2, 5, "lse", False)
    case 'o' => CheckKeyword(source, 2, 3, "r", For)
    case 'u' => CheckKeyword(source, 2, 3, "n", Fun)
    case _ => Some(Identifier)
  }

  /** The trie below `t`, for an identifier of two or more bytes. */
  function AfterT(source: seq<byte>): (r: Option<TokenType>)
    requires 2 <= |source|
    ensures |source| >= 4 ==> r.Some?
    ensures r.Some? ==> r.value in {Identifier, This, True}
  {
    match source[1] as char
    case 'h' => CheckKeyword(source, 2, 4, "is", This)
    case 'r' => CheckKeyword(source, 2, 4, "ue", True)
    case _ => Some(Identifier)
  }

  /** The token types of the reserved words. */
  const Keywords: set<TokenType> :=
    {And, Class, Else, False, For, Fun, If, Nil, Or, Print, Return, Super, This, True, Var, While}

  predicate KeywordKind(k: TokenType) {
    k in Keywords
  }

  /** The reserved word each keyword token type is spelled with. */
  function Spelling(k: TokenType): (w: string)
    requires KeywordKind(k)
    ensures 2 <= |w| <= 6
  {
    match k
    case And => "and"
    case Class => "class"
    case Else => "else"
    case False => "false"
    case For => "for"
    case Fun => "fun"
    case If => "if"
    case Nil => "nil"
    case Or => "or"
    case Print => "print"
    case Return => "return"
    case Super => "super"
    case This => "this"
    case True => "true"
    case Var => "var"
    case While => "while"
  }


  /** `bytes` begins with the characters of `word`. */
  predicate StartsWith(bytes: seq<byte>, word: string) {
    |word| <= |bytes| && forall i | 0 <= i < |word| :: bytes[i] as char == word[i]
  }

  // ---------------------------------------------------------------------------
  // Literals and identifiers. Each is entered with the first byte consumed and the
  // source re-based at the token, so `s.current == 1`.

  /** `identifier`: the longest run of identifier characters, classified by the trie. */
  function ScanIdentifier(s: Scanner): (r: Scanned)
    requires s.Valid() && s.current == 1 && IsIdentStart(s.source[0] as char)
    ensures r.Scanned? ==>
      && r.scanner.Valid() && r.scanner.source == s.source && r.scanner.line == s.line
      && r.token == Token(r.token.kind, s.source[..(r.scanner.current)], s.line)
      && (forall k | 0 <= k < r.scanner.current :: IsIdentChar(s.source[k] as char))
      && (r.scanner.current == |s.source| || !IsIdentChar(s.source[r.scanner.current] as char))
      && (r.token.kind == Identifier || KeywordKind(r.token.kind))
      && r.token.kind != Eof && r.token.kind != Error
      && Newlines(r.token.lexeme) == 0
    ensures |s.source| >= 6 ==> r.Scanned?
  {
    var end := ConsumeWhile(s, IsIdentChar);
    NoNewlines(s.source[..end.current]);
    match IdentifierKind(end.source, end.current)
    case None => SliceOutOfRange
    case Some(kind) => Scanned(end, MakeToken(end, kind))
  }

  /** A number literal: digits, optionally one `.` with digits on both sides. */
  predicate NumberLiteral(lexeme: seq<byte>) {
    && |lexeme| >= 1
    && IsDigit(lexeme[0] as char)
    && IsDigit(lexeme[|lexeme| - 1] as char)
    && (forall i | 0 <= i < |lexeme| :: IsDigit(lexeme[i] as char) || lexeme[i] as char == '.')
    && (forall i, j | 0 <= i < j < |lexeme| :: lexeme[i] as char == '.' ==> lexeme[j] as char != '.')
  }

  /** `number`: a digit run and, when a `.` is followed by a digit, the `.` and a
      second digit run. A `.` not followed by a digit is left for the next token. */
  function ScanNumber(s: Scanner): (r: Scanned)
    requires s.Valid() && s.current == 1 && IsDigit(s.source[0] as char)
    ensures r.Scanned? && r.token.kind == Number
    ensures r.scanner.Valid() && r.scanner.source == s.source && r.scanner.line == s.line
    ensures r.token == Token(Number, s.source[..(r.scanner.current)], s.line)
    ensures NumberLiteral(r.token.lexeme) && Newlines(r.token.lexeme) == 0
    ensures r.scanner.current == |s.source| || !IsDigit(s.source[r.scanner.current] as char)
    ensures (forall k | 0 <= k < r.scanner.current :: s.source[k] as char != '.') ==>
      !(r.scanner.current + 1 < |s.source|
        && s.source[r.scanner.current] as char == '.'
        && IsDigit(s.source[r.scanner.current + 1] as char))
  {
    var integral := ConsumeWhile(s, IsDigit);
    if Peek(integral) == '.' && IsDigit(PeekNext(integral)) then
      ScanFraction(s, integral)
    else
      DigitsAreNumber(s.source, integral.current);
      Scanned(integral, MakeToken(integral, Number))
  }

  /** The fractional part of `number`: past the integral digits, a `.` followed by a
      digit is consumed together with the digit run after it. */
  function ScanFraction(s: Scanner, integral: Scanner): (r: Scanned)
    requires s.Valid() && integral.Valid() && integral.source == s.source && integral.line == s.line
    requires 1 <= integral.current && integral.current + 1 < |s.source|
    requires forall k | 0 <= k < integral.current :: IsDigit(s.source[k] as char)
    requires s.source[integral.current] as char == '.'
    requires IsDigit(s.source[integral.current + 1] as char)
    ensures r.Scanned? && integral.current + 1 < r.scanner.current
    ensures r.scanner.Valid() && r.scanner.source == s.source && r.scanner.line == s.line
    ensures r.token == Token(Number, s.source[..(r.scanner.current)], s.line)
    ensures NumberLiteral(r.token.lexeme) && Newlines(r.token.lexeme) == 0
    ensures r.scanner.current == |s.source| || !IsDigit(s.source[r.scanner.current] as char)
  {
    var fraction := ConsumeWhile(Advance(integral).0, IsDigit);
    FractionIsNumber(s.source, integral.current, fraction.current);
    Scanned(fraction, MakeToken(fraction, Number))
  }

  lemma DigitsAreNumber(bytes: seq<byte>, n: nat)
    requires 1 <= n <= |bytes|
    requires forall k | 0 <= k < n :: IsDigit(bytes[k] as char)
    ensures NumberLiteral(bytes[..n]) && Newlines(bytes[..n]) == 0
  {
    NoNewlines(bytes[..n]);
  }

  lemma FractionIsNumber(bytes: seq<byte>, dot: nat, n: nat)
    requires 1 <= dot && dot + 1 < n <= |bytes|
    requires forall k | 0 <= k < dot :: IsDigit(bytes[k] as char)
    requires bytes[dot] as char == '.'
    requires forall k | dot < k < n :: IsDigit(bytes[k] as char)
    ensures NumberLiteral(bytes[..n]) && Newlines(bytes[..n]) == 0
  {
    var lexeme := bytes[..n];
    forall i, j | 0 <= i < j < n && lexeme[i] as char == '.'
      ensures lexeme[j] as char != '.'
    {
      assert i == dot;
    }
    NoNewlines(lexeme);
  }

  /** The body loop of `string`: up to the closing quote or the end, counting lines. */
  function StringBody(s: Scanner): (r: Scanner)
    requires s.Valid()
    ensures r.Valid() && r.source == s.source && s.current <= r.current
    ensures forall k | s.current <= k < r.current :: s.source[k] as char != '"'
    ensures r.current == |s.source| || s.source[r.current] as char == '"'
    ensures r.line == s.line + Newlines(s.source[s.current..(r.current)])
    decreases |s.source| - s.current
  {
    if Peek(s) != '"' && !IsAtEnd(s) then
      var counted := if Peek(s) == '\n' then s.(line := s.line + 1) else s;
      StringBody(Advance(counted).0)
    else
      s
  }

  /** `string`: a literal from its opening quote through its closing quote, or the
      "Unterminated string" error when the source ends first. */
  function ScanString(s: Scanner): (r: Scanned)
    requires s.Valid() && s.current == 1 && s.source[0] as char == '"'
    ensures r.Scanned? && r.scanner.Valid() && r.scanner.source == s.source
    ensures r.token.line == r.scanner.line
    ensures r.scanner.line == s.line + Newlines(s.source[..(r.scanner.current)])
    ensures r.token.kind == String <==> exists k | 1 <= k < |s.source| :: s.source[k] as char == '"'
    ensures r.token.kind == String ==>
      && r.token.lexeme == s.source[..(r.scanner.current)]
      && 2 <= r.scanner.current
      && s.source[r.scanner.current - 1] as char == '"'
      && forall k | 1 <= k < r.scanner.current - 1 :: s.source[k] as char != '"'
    ensures r.token.kind != String ==>
      r.token.kind == Error && r.token.lexeme == UnterminatedString && r.scanner.current == |s.source|
  {
    var body := StringBody(s);
    NewlinesSplit(s.source, 0, 1, body.current);
    if IsAtEnd(body) then
      Scanned(body, ErrorToken(body, UnterminatedString))
    else
      var closed := Advance(body).0;
      NewlinesSplit(s.source, 0, body.current, closed.current);
      Scanned(closed, MakeToken(closed, String))
  }

  // ---------------------------------------------------------------------------
  // scan_token

  /** A one- or two-byte operator whose bytes are not newlines spans no line. */
  lemma ScanSymbolLines(source: seq<byte>, n: nat)
    requires 1 <= n <= 2 && n <= |source|
    requires IsNotNewline(source[0] as char) && (n == 2 ==> source[1] as char == '=')
    ensures Newlines(source[..n]) == 0
  {
    NoNewlines(source[..n]);
  }

  /** An operator that may be followed by `=`: the two-byte kind `double` exactly when
      the next byte is `=`, the one-byte kind `single` otherwise. */
  function ScanOperator(t: Scanner, single: TokenType, double: TokenType): (r: Scanned)
    requires t.Valid() && t.current == 1 && IsNotNewline(t.source[0] as char)
    ensures r.Scanned? && r.scanner.Valid() && r.scanner.source == t.source && r.scanner.line == t.line
    ensures r.scanner.current == (if 2 <= |t.source| && t.source[1] as char == '=' then 2 else 1)
    ensures r.token == Token(if r.scanner.current == 2 then double else single, t.source[..(r.scanner.current)], t.line)
    ensures Newlines(t.source[..(r.scanner.current)]) == 0
  {
    var (u, eq) := Compare(t, '=');
    ScanSymbolLines(t.source, u.current);
    Scanned(u, MakeToken(u, if eq then double else single))
  }

  /** The `match` of `scan_token` on a first byte `c` that starts neither an
      identifier nor a number: punctuation, operators, strings and the error for
      any other byte. */
  function ScanSymbol(t: Scanner, c: char): (r: Scanned)
    requires t.Valid() && t.current == 1 && t.source[0] as char == c
    requires !IsBlank(c)
    ensures r.Scanned? && r.scanner.Valid() && r.scanner.source == t.source
    ensures r.token.line == r.scanner.line
    ensures 1 <= r.scanner.current
    ensures r.scanner.line == t.line + Newlines(t.source[..(r.scanner.current)])
    ensures r.token.kind != Error ==> r.token.lexeme == t.source[..(r.scanner.current)]
    ensures r.token.kind != Eof && r.token.kind != Identifier && r.token.kind != Number
    ensures !KeywordKind(r.token.kind)
    ensures c == '"' <==> r.token.kind == String || r.token.lexeme == UnterminatedString
  {
    assert t.source[..1] == [t.source[0]];
    assert |UnexpectedCharacter| != |UnterminatedString|;
    match c
    case '(' => Scanned(t, MakeToken(t, LeftParen))
    case ')' => Scanned(t, MakeToken(t, RightParen))
    case '{' => Scanned(t, MakeToken(t, LeftBrace))
    case '}' => Scanned(t, MakeToken(t, RightBrace))
    case ';' => Scanned(t, MakeToken(t, Semicolon))
    case ',' => Scanned(t, MakeToken(t, Comma))
    case '.' => Scanned(t, MakeToken(t, Dot))
    case '-' => Scanned(t, MakeToken(t, Minus))
    case '+' => Scanned(t, MakeToken(t, Plus))
    case '/' => Scanned(t, MakeToken(t, Slash))
    case '*' => Scanned(t, MakeToken(t, Star))
    case '!' => ScanOperator(t, Bang, BangEqual)
    case '=' => ScanOperator(t, Equal, EqualEqual)
    case '<' => ScanOperator(t, Less, LessEqual)
    case '>' => ScanOperator(t, Greater, GreaterEqual)
    case '"' => ScanString(t)
    case _ => Scanned(t, ErrorToken(t, UnexpectedCharacter))
  }

  /** `scan_token`: skips blanks and comments, re-bases the source at the next token
      and scans one token. */
  function ScanToken(s: Scanner): (r: Scanned)
    requires s.Valid()
    ensures r.Scanned? ==>
      && r.scanner.Valid()
      && r.scanner.source == Rest(s)
      && r.token.line == r.scanner.line
      && r.scanner.line == SkipWhitespace(s).line + Newlines(Rest(s)[..(r.scanner.current)])
      && (r.token.kind == Eof <==> Rest(s) == [])
      && (r.token.kind == Eof ==> r.token.lexeme == [] && r.scanner.current == 0)
      && (r.token.kind != Eof ==> 1 <= r.scanner.current)
      && (r.token.kind != Error ==> r.token.lexeme == Rest(s)[..(r.scanner.current)])
    ensures r.SliceOutOfRange? ==> Rest(s) != [] && IsIdentStart(Rest(s)[0] as char) && |Rest(s)| < 6
  {
    var skipped := SkipWhitespace(s);
    var start := Scanner(skipped.source[skipped.current..], 0, skipped.line);
    if IsAtEnd(start) then
      Scanned(start, MakeToken(start, Eof))
    else
      var (t, c) := Advance(start);
      assert t.source == Rest(s) && t.source[..1] == [t.source[0]];
      if IsIdentStart(c) then ScanIdentifier(t)
      else if IsDigit(c) then ScanNumber(t)
      else ScanSymbol(t, c)
  }

  // ---------------------------------------------------------------------------
  // Repeated scanning

  /** The bytes not yet consumed by `s`. */
  function Remaining(s: Scanner): int {
    |s.source| - s.current
  }

  /** Every token but `Eof` consumes at least one byte. */
  lemma ScanProgress(s: Scanner)
    requires s.Valid() && ScanToken(s).Scanned? && ScanToken(s).token.kind != Eof
    ensures Remaining(ScanToken(s).scanner) < Remaining(s)
  {
    var r := ScanToken(s);
    assert |r.scanner.source| == |s.source| - SkipWhitespace(s).current;
  }

  /** `tokens` ends with an `Eof` token and holds no other. */
  predicate EndsAtEof(tokens: seq<Token>) {
    && |tokens| >= 1
    && tokens[|tokens| - 1].kind == Eof
    && forall i | 0 <= i < |tokens| - 1 :: tokens[i].kind != Eof
  }

  lemma ConsEndsAtEof(token: Token, tokens: seq<Token>)
    requires token.kind != Eof && EndsAtEof(tokens)
    ensures EndsAtEof([token] + tokens)
  {
    var v := [token] + tokens;
    assert forall i | 1 <= i < |v| :: v[i] == tokens[i - 1];
  }

  /** Scans tokens until `Eof`, as the token loop of `compile` does; `None` when a
      scan panics. The stream ends with its only `Eof` and holds at most one token per
      remaining byte besides it, since every other token consumes a byte. */
  function Tokens(s: Scanner): (r: Option<seq<Token>>)
    requires s.Valid()
    ensures r.Some? ==> EndsAtEof(r.value) && |r.value| <= Remaining(s) + 1
    decreases Remaining(s)
  {
    match ScanToken(s)
    case SliceOutOfRange => None
    case Scanned(next, token) =>
      if token.kind == Eof then Some([token])
      else
        ScanProgress(s);
        match Tokens(next)
        case None => None
        case Some(tokens) =>
          ConsEndsAtEof(token, tokens);
          Some([token] + tokens)
  }
}

=== FILE: scanner_props.dfy ===
/** Properties of the scanner of src/scanner.rs, stated over `Scanning.ScanToken`. */
module ScannerProperties {
  import opened Bytes
  import opened Scanning

  // ---------------------------------------------------------------------------
  // Progress and line tracking

  /** Scanning a token keeps the scanner tracking its input (so the line is always one
      more than the number of newlines consumed), and every token but `Eof` consumes
      at least one byte. */
  lemma ScanTokenTracks(input: seq<byte>, s: Scanner)
    requires Tracks(input, s)
    ensures var r := ScanToken(s);
      r.Scanned? ==>
        && Tracks(input, r.scanner)
        && Consumed(input, s) <= Consumed(input, r.scanner)
        && (r.token.kind != Eof ==> Consumed(input, s) < Consumed(input, r.scanner))
  {
    var r := ScanToken(s);
    if r.Scanned? {
      var w := SkipWhitespace(s);
      TracksAfterSkip(input, s, w.current, w.line, r.scanner);
    }
  }

  /** Skipping to `skipped` and then consuming `t.current` bytes of the re-based
      source keeps the line equal to one more than the newlines consumed. */
  lemma TracksAfterSkip(input: seq<byte>, s: Scanner, skipped: nat, line: nat, t: Scanner)
    requires Tracks(input, s)
    requires s.current <= skipped <= |s.source|
    requires line == s.line + Newlines(s.source[s.current..skipped])
    requires t.Valid() && t.source == s.source[skipped..]
    requires t.line == line + Newlines(t.source[..(t.current)])
    ensures Tracks(input, t)
    ensures Consumed(input, t) == Consumed(input, s) + (skipped - s.current) + t.current
  {
    var base := |input| - |s.source|;
    var mid := base + s.current;
    var start := base + skipped;
    var end := start + t.current;
    assert |input| - |t.source| == start;
    assert t.source == input[start..] by {
      assert s.source == input[base..];
    }
    assert Newlines(s.source[s.current..skipped]) == Newlines(input[mid..start]) by {
      assert s.source[s.current..skipped] == input[mid..start];
    }
    assert Newlines(t.source[..t.current]) == Newlines(input[start..end]) by {
      assert t.source[..t.current] == input[start..end];
    }
    NewlinesSplit(input, 0, mid, start);
    NewlinesSplit(input, 0, start, end);
    assert Consumed(input, s) == mid && Consumed(input, t) == end;
    assert t.line == 1 + Newlines(input[..end]);
  }

  /** `skip_whitespace` stops at the first token start: a stretch of blanks and
      comments that ends on a token start ends exactly where the skip does. */
  lemma {:induction false} SkipStopsAtFirstToken(s: Scanner, j: nat)
    requires s.Valid() && s.current <= j <= |s.source|
    requires Skips(s.source, s.current, j) && AtTokenStart(s.(current := j))
    ensures SkipWhitespace(s).current == j
    decreases j - s.current
  {
    if s.current < j {
      var next := SkipOne(s);
      assert AtTokenStart(next.(current := j)) by {
        assert next.(current := j) == s.(current := j).(line := next.line);
      }
      SkipStopsAtFirstToken(next, j);
    }
  }

  /** The scanner right after `scan_token` has consumed the first byte of a token. */
  function TokenStart(s: Scanner): (t: Scanner)
    requires s.Valid() && Rest(s) != []
    ensures t.Valid() && t.current == 1 && !IsBlank(t.source[0] as char)
  {
    Scanner(Rest(s), 1, SkipWhitespace(s).line)
  }

  /** `scan_token` dispatches on the first byte of the token. */
  lemma ScanTokenDispatch(s: Scanner)
    requires s.Valid() && Rest(s) != []
    ensures var t := TokenStart(s); var c := Rest(s)[0] as char;
      ScanToken(s) ==
        if IsIdentStart(c) then ScanIdentifier(t)
        else if IsDigit(c) then ScanNumber(t)
        else ScanSymbol(t, c)
  {
  }

  /** The first byte after the skip decides the class of the token: an identifier or a
      keyword exactly when it is a letter or `_`, a number exactly when it is a digit, and
      a string or the unterminated-string error exactly when it is a quote. */
  lemma FirstByteDecides(s: Scanner)
    requires s.Valid() && Rest(s) != [] && ScanToken(s).Scanned?
    ensures var c := Rest(s)[0] as char; var tok := ScanToken(s).token;
      && tok.kind != Eof
      && (IsIdentStart(c) <==> tok.kind == Identifier || KeywordKind(tok.kind))
      && (IsDigit(c) <==> tok.kind == Number)
      && (c == '"' <==> tok.kind == String || (tok.kind == Error && tok.lexeme == UnterminatedString))
  {
    ScanTokenDispatch(s);
  }

  /** Once the source is exhausted, every further scan returns the same `Eof` token. */
  lemma EofIsSticky(s: Scanner)
    requires s.Valid() && ScanToken(s).Scanned? && ScanToken(s).token.kind == Eof
    ensures ScanToken(ScanToken(s).scanner) == ScanToken(s)
  {
    var r := ScanToken(s).scanner;
    assert r == Scanner([], 0, SkipWhitespace(s).line);
    assert SkipWhitespace(r) == r;
    EofAtEnd(r);
  }

  /** At the end of the input the scanner yields `Eof` with an empty lexeme on the
      current line, without consuming anything. */
  lemma EofAtEnd(s: Scanner)
    requires s.Valid() && Rest(s) == []
    ensures ScanToken(s) == Scanned(Scanner([], 0, SkipWhitespace(s).line), Token(Eof, [], SkipWhitespace(s).line))
  {
  }

  // ---------------------------------------------------------------------------
  // Punctuation and operators

  /** The single-byte tokens of the language. */
  function Punctuation(c: char): Option<TokenType> {
    if c == '(' then Some(LeftParen)
    else if c == ')' then Some(RightParen)
    else if c == '{' then Some(LeftBrace)
    else if c == '}' then Some(RightBrace)
    else if c == ';' then Some(Semicolon)
    else if c == ',' then Some(Comma)
    else if c == '.' then Some(Dot)
    else if c == '-' then Some(Minus)
    else if c == '+' then Some(Plus)
    else if c == '/' then Some(Slash)
    else if c == '*' then Some(Star)
    else None
  }

  /** A punctuation byte is a one-byte token of its kind. */
  lemma PunctuationToken(s: Scanner)
    requires s.Valid() && Rest(s) != [] && Punctuation(Rest(s)[0] as char).Some?
    ensures var rest := Rest(s); var line := SkipWhitespace(s).line;
      ScanToken(s) == Scanned(Scanner(rest, 1, line), Token(Punctuation(rest[0] as char).value, rest[..1], line))
  {
    ScanTokenDispatch(s);
    var t := TokenStart(s);
    var c := Rest(s)[0] as char;
    assert t.source[..1] == Rest(s)[..1];
    if c == '(' {
      assert ScanSymbol(t, c) == Scanned(t, MakeToken(t, LeftParen));
    } else if c == ')' {
      assert ScanSymbol(t, c) == Scanned(t, MakeToken(t, RightParen));
    } else if c == '{' {
      assert ScanSymbol(t, c) == Scanned(t, MakeToken(t, LeftBrace));
    } else if c == '}' {
      assert ScanSymbol(t, c) == Scanned(t, MakeToken(t, RightBrace));
    } else if c == ';' {
      assert ScanSymbol(t, c) == Scanned(t, MakeToken(t, Semicolon));
    } else if c == ',' {
      assert ScanSymbol(t, c) == Scanned(t, MakeToken(t, Comma));
    } else if c == '.' {
      assert ScanSymbol(t, c) == Scanned(t, MakeToken(t, Dot));
    } else if c == '-' {
      assert ScanSymbol(t, c) == Scanned(t, MakeToken(t, Minus));
    } else if c == '+' {
      assert ScanSymbol(t, c) == Scanned(t, MakeToken(t, Plus));
    } else if c == '/' {
      assert ScanSymbol(t, c) == Scanned(t, MakeToken(t, Slash));
    } else {
      assert ScanSymbol(t, c) == Scanned(t, MakeToken(t, Star));
    }
  }

  /** The one-byte and two-byte kinds of `!`, `=`, `<` and `>`. */
  function OperatorKinds(c: char): (TokenType, TokenType)
    requires c in "!=<>"
  {
    if c == '!' then (Bang, BangEqual)
    else if c == '=' then (Equal, EqualEqual)
    else if c == '<' then (Less, LessEqual)
    else (Greater, GreaterEqual)
  }

  /** `!`, `=`, `<` and `>` yield the two-byte kind, with a two-byte lexeme, exactly when
      the next byte is `=`; otherwise the one-byte kind, consuming nothing more. */
  lemma OperatorToken(s: Scanner)
    requires s.Valid() && Rest(s) != [] && Rest(s)[0] as char in "!=<>"
    ensures var rest := Rest(s); var r := ScanToken(s);
      var two := |rest| >= 2 && rest[1] as char == '=';
      var n := if two then 2 else 1;
      && r.Scanned?
      && r.token.kind == (if two then OperatorKinds(rest[0] as char).1 else OperatorKinds(rest[0] as char).0)
      && r.scanner.current == n
      && r.token.lexeme == rest[..n]
  {
    ScanTokenDispatch(s);
    var t := TokenStart(s);
    var c := Rest(s)[0] as char;
    assert ScanToken(s) == ScanSymbol(t, c);
    var (single, double) := OperatorKinds(c);
    assert ScanSymbol(t, c) == ScanOperator(t, single, double);
  }

  /** Any byte that starts no token is an "Unexpected character" error that consumes
      that one byte. */
  lemma UnexpectedCharacterToken(s: Scanner)
    requires s.Valid() && Rest(s) != []
    requires var c := Rest(s)[0] as char;
      !IsIdentStart(c) && !IsDigit(c) && Punctuation(c).None? && c !in "!=<>\""
    ensures var line := SkipWhitespace(s).line;
      ScanToken(s) == Scanned(Scanner(Rest(s), 1, line), Token(Error, UnexpectedCharacter, line))
  {
    ScanTokenDispatch(s);
    var t := TokenStart(s);
    OtherSymbol(t, Rest(s)[0] as char);
  }

  lemma OtherSymbol(t: Scanner, c: char)
    requires t.Valid() && t.current == 1 && t.source[0] as char == c && !IsBlank(c)
    requires Punctuation(c).None? && c !in "!=<>\""
    ensures ScanSymbol(t, c) == Scanned(t, ErrorToken(t, UnexpectedCharacter))
  {
  }

  // ---------------------------------------------------------------------------
  // Literals

  /** A number token is a maximal number literal: a digit run, then `.` and a second
      digit run only when the `.` is followed by a digit. */
  lemma NumberToken(s: Scanner)
    requires s.Valid() && Rest(s) != [] && IsDigit(Rest(s)[0] as char)
    ensures var rest := Rest(s); var r := ScanToken(s); var n := r.scanner.current;
      && r.Scanned?
      && r.token.kind == Number
      && r.token.lexeme == rest[..n]
      && NumberLiteral(r.token.lexeme)
      && (n == |rest| || !IsDigit(rest[n] as char))
      && ((forall k | 0 <= k < n :: rest[k] as char != '.') ==>
            !(n + 1 < |rest| && rest[n] as char == '.' && IsDigit(rest[n + 1] as char)))
  {
    ScanTokenDispatch(s);
  }

  /** A string token runs from its opening quote through the first closing quote; when
      there is none it is the "Unterminated string" error and consumes the rest. Lines
      inside the literal are counted. */
  lemma StringToken(s: Scanner)
    requires s.Valid() && Rest(s) != [] && Rest(s)[0] as char == '"'
    ensures var rest := Rest(s); var r := ScanToken(s); var n := r.scanner.current;
      && r.Scanned?
      && r.scanner.line == SkipWhitespace(s).line + Newlines(rest[..n])
      && (r.token.kind == String <==> exists k | 1 <= k < |rest| :: rest[k] as char == '"')
      && (r.token.kind == String ==>
            && r.token.lexeme == rest[..n]
            && 2 <= n
            && rest[n - 1] as char == '"'
            && forall k | 1 <= k < n - 1 :: rest[k] as char != '"')
      && (r.token.kind != String ==>
            r.token == Token(Error, UnterminatedString, r.scanner.line) && n == |rest|)
  {
    var t := TokenStart(s);
    ScanTokenDispatch(s);
    QuoteScansString(t);
  }

  lemma QuoteScansString(t: Scanner)
    requires t.Valid() && t.current == 1 && t.source[0] as char == '"'
    ensures ScanSymbol(t, '"') == ScanString(t)
  {
  }

  // ---------------------------------------------------------------------------
  // Identifiers and keywords

  /** The trie classifies an identifier as a keyword exactly when the keyword's spelling
      is a prefix of the lexeme (so `andy` is `And`); otherwise as `Identifier`. It can
      panic only on a short tail, never when six or more bytes remain. */
  lemma IdentifierToken(s: Scanner)
    requires s.Valid() && Rest(s) != [] && IsIdentStart(Rest(s)[0] as char)
    ensures var rest := Rest(s); var r := ScanToken(s);
      && (|rest| >= 6 ==> r.Scanned?)
      && (r.Scanned? ==>
            var n := r.scanner.current;
            && r.token.lexeme == rest[..n]
            && (forall k | 0 <= k < n :: IsIdentChar(rest[k] as char))
            && (n == |rest| || !IsIdentChar(rest[n] as char))
            && (r.token.kind == Identifier || KeywordKind(r.token.kind))
            && forall k: TokenType | KeywordKind(k) ::
                 r.token.kind == k <==> StartsWith(r.token.lexeme, Spelling(k)))
  {
    ScanTokenDispatch(s);
    var rest := Rest(s);
    var r := ScanToken(s);
    if r.Scanned? {
      var n := r.scanner.current;
      forall k: TokenType | KeywordKind(k)
        ensures r.token.kind == k <==> StartsWith(r.token.lexeme, Spelling(k))
      {
        if StartsWith(r.token.lexeme, Spelling(k)) {
          ReservedPrefixIsKeyword(rest, n, k);
        }
        if r.token.kind == k {
          KeywordIsReservedPrefix(rest, n, k);
        }
      }
    }
  }

  /** Completeness of the trie: a lexeme that begins with a reserved word is classified
      as that word's keyword. */
  lemma ReservedPrefixIsKeyword(source: seq<byte>, current: nat, k: TokenType)
    requires 1 <= current <= |source| && KeywordKind(k)
    requires StartsWith(source[..current], Spelling(k))
    ensures IdentifierKind(source, current) == Some(k)
  {
    assert StartsWith(source, Spelling(k));
    match k
    case And => TrieAnd(source, current);
    case Class => TrieClass(source, current);
    case Else => TrieElse(source, current);
    case False => TrieFalse(source, current);
    case For => TrieFor(source, current);
    case Fun => TrieFun(source, current);
    case If => TrieIf(source, current);
    case Nil => TrieNil(source, current);
    case Or => TrieOr(source, current);
    case Print => TriePrint(source, current);
    case Return => TrieReturn(source, current);
    case Super => TrieSuper(source, current);
    case This => TrieThis(source, current);
    case True => TrieTrue(source, current);
    case Var => TrieVar(source, current);
    case While => TrieWhile(source, current);
  }

  /** Soundness of the trie: when the lexeme is a maximal identifier run, a keyword
      classification means the keyword's spelling is a prefix of the lexeme. */
  lemma KeywordIsReservedPrefix(source: seq<byte>, current: nat, k: TokenType)
    requires 1 <= current <= |source| && KeywordKind(k)
    requires current == |source| || !IsIdentChar(source[current] as char)
    requires IdentifierKind(source, current) == Some(k)
    ensures StartsWith(source[..current], Spelling(k))
  {
    TrieMatched(source, current, k);
    KeywordSpelling(k);
  }

  /** The trie classifies a maximal identifier run as keyword `k` exactly when the
      source begins with `k`'s spelling, whatever follows the run. */
  lemma TrieClassifies(source: seq<byte>, current: nat, k: TokenType)
    requires 1 <= current <= |source| && KeywordKind(k)
    requires current == |source| || !IsIdentChar(source[current] as char)
    ensures IdentifierKind(source, current) == Some(k) <==> StartsWith(source, Spelling(k))
  {
    var w := Spelling(k);
    if IdentifierKind(source, current) == Some(k) {
      TrieMatched(source, current, k);
    }
    if StartsWith(source, w) {
      KeywordSpelling(k);
      assert StartsWith(source[..current], w);
      ReservedPrefixIsKeyword(source, current, k);
    }
  }

  /** How many leading letters pick the trie branch of keyword `k`: two under `f` and
      `t`, where several keywords share the first letter, and one elsewhere. */
  function SelectorLength(k: TokenType): (p: nat)
    ensures 1 <= p <= 2
  {
    if k in {False, For, Fun, This, True} then 2 else 1
  }

  /** The trie enters the branch of keyword `k`: the source begins with the letters
      that select it, and, under `f` and `t`, the identifier is long enough for the
      trie to look at its second byte. */
  predicate Selects(source: seq<byte>, current: nat, k: TokenType) {
    && KeywordKind(k)
    && SelectorLength(k) <= current
    && StartsWith(source, Spelling(k)[..SelectorLength(k)])
  }

  /** The trie panics exactly when it enters the branch of a keyword longer than the
      remaining source: the slice it compares then runs past the end. */
  lemma TriePanics(source: seq<byte>, current: nat)
    requires 1 <= current <= |source|
    ensures IdentifierKind(source, current).None? <==>
      exists k :: Selects(source, current, k) && |source| < |Spelling(k)|
  {
    if IdentifierKind(source, current).None? {
      var k := PanickingBranch(source, current);
      assert Selects(source, current, k) && |source| < |Spelling(k)|;
    }
    forall k | Selects(source, current, k) && |source| < |Spelling(k)|
      ensures IdentifierKind(source, current).None?
    {
      SelectedWindow(source, current, k);
    }
  }

  /** The keyword whose branch a panicking trie entered. */
  lemma PanickingBranch(source: seq<byte>, current: nat) returns (k: TokenType)
    requires 1 <= current <= |source| && IdentifierKind(source, current).None?
    ensures Selects(source, current, k) && |source| < |Spelling(k)|
  {
    match source[0] as char {
      case 'a' => k := And;
      case 'c' => k := Class;
      case 'e' => k := Else;
      case 'f' =>
        assert AfterF(source).None?;
        match source[1] as char {
          case 'a' => k := False;
          case 'o' => k := For;
          case 'u' => k := Fun;
        }
      case 'i' => k := If;
      case 'n' => k := Nil;
      case 'o' => k := Or;
      case 'p' => k := Print;
      case 'r' => k := Return;
      case 's' => k := Super;
      case 't' =>
        assert AfterT(source).None?;
        match source[1] as char {
          case 'h' => k := This;
          case 'r' => k := True;
        }
      case 'v' => k := Var;
      case 'w' => k := While;
    }
  }

  /** In the branch of keyword `k` the trie compares the window that ends at `k`'s
      length, so it panics exactly when the source is shorter than `k`. */
  lemma SelectedWindow(source: seq<byte>, current: nat, k: TokenType)
    requires 1 <= current <= |source| && Selects(source, current, k)
    ensures IdentifierKind(source, current).None? <==> |source| < |Spelling(k)|
  {
    if SelectorLength(k) == 2 {
      SelectedWindowTwo(source, current, k);
    } else {
      SelectedWindowOne(source, current, k);
    }
  }

  /** `SelectedWindow` for the keywords picked by their first letter alone. */
  lemma SelectedWindowOne(source: seq<byte>, current: nat, k: TokenType)
    requires 1 <= current <= |source| && Selects(source, current, k) && SelectorLength(k) == 1
    ensures IdentifierKind(source, current).None? <==> |source| < |Spelling(k)|
  {
    assert source[0] as char == Spelling(k)[0];
    match k
    case And => assert IdentifierKind(source, current) == CheckKeyword(source, 1, 3, "nd", And);
    case Class => assert IdentifierKind(source, current) == CheckKeyword(source, 1, 5, "lass", Class);
    case Else => assert IdentifierKind(source, current) == CheckKeyword(source, 1, 4, "lse", Else);
    case If => assert IdentifierKind(source, current) == CheckKeyword(source, 1, 2, "f", If);
    case Nil => assert IdentifierKind(source, current) == CheckKeyword(source, 1, 3, "il", Nil);
    case Or => assert IdentifierKind(source, current) == CheckKeyword(source, 1, 2, "r", Or);
    case Print => assert IdentifierKind(source, current) == CheckKeyword(source, 1, 5, "rint", Print);
    case Return => assert IdentifierKind(source, current) == CheckKeyword(source, 1, 6, "eturn", Return);
    case Super => assert IdentifierKind(source, current) == CheckKeyword(source, 1, 5, "uper", Super);
    case Var => assert IdentifierKind(source, current) == CheckKeyword(source, 1, 3, "ar", Var);
    case While => assert IdentifierKind(source, current) == CheckKeyword(source, 1, 5, "hile", While);
  }

  /** `SelectedWindow` for the keywords under `f` and `t`, picked by two letters. */
  lemma SelectedWindowTwo(source: seq<byte>, current: nat, k: TokenType)
    requires 1 <= current <= |source| && Selects(source, current, k) && SelectorLength(k) == 2
    ensures IdentifierKind(source, current).None? <==> |source| < |Spelling(k)|
  {
    assert source[0] as char == Spelling(k)[0] && source[1] as char == Spelling(k)[1];
    match k
    case False => assert IdentifierKind(source, current) == CheckKeyword(source, 2, 5, "lse", False);
    case For => assert IdentifierKind(source, current) == CheckKeyword(source, 2, 3, "r", For);
    case Fun => assert IdentifierKind(source, current) == CheckKeyword(source, 2, 3, "n", Fun);
    case This => assert IdentifierKind(source, current) == CheckKeyword(source, 2, 4, "is", This);
    case True => assert IdentifierKind(source, current) == CheckKeyword(source, 2, 4, "ue", True);
  }

  /** A keyword classification means the source begins with the keyword. */
  lemma TrieMatched(source: seq<byte>, current: nat, k: TokenType)
    requires 1 <= current <= |source| && KeywordKind(k)
    requires IdentifierKind(source, current) == Some(k)
    ensures StartsWith(source, Spelling(k))
  {
    match source[0] as char
    case 'a' => TrieAnd(source, current);
    case 'c' => TrieClass(source, current);
    case 'e' => TrieElse(source, current);
    case 'f' => TrieMatchedAfter(source, current, k);
    case 'i' => TrieIf(source, current);
    case 'n' => TrieNil(source, current);
    case 'o' => TrieOr(source, current);
    case 'p' => TriePrint(source, current);
    case 'r' => TrieReturn(source, current);
    case 's' => TrieSuper(source, current);
    case 't' => TrieMatchedAfter(source, current, k);
    case 'v' => TrieVar(source, current);
    case 'w' => TrieWhile(source, current);
    case _ =>
  }

  /** `TrieMatched` for the two-letter branches below `f` and `t`. */
  lemma TrieMatchedAfter(source: seq<byte>, current: nat, k: TokenType)
    requires 1 <= current <= |source| && KeywordKind(k)
    requires source[0] as char == 'f' || source[0] as char == 't'
    requires IdentifierKind(source, current) == Some(k)
    ensures StartsWith(source, Spelling(k))
  {
    assert current > 1;
    if source[0] as char == 'f' {
      assert AfterF(source) == Some(k);
      match source[1] as char
      case 'a' => TrieFalse(source, current);
      case 'o' => TrieFor(source, current);
      case 'u' => TrieFun(source, current);
    } else {
      assert AfterT(source) == Some(k);
      match source[1] as char
      case 'h' => TrieThis(source, current);
      case 'r' => TrieTrue(source, current);
    }
  }

  /** The comparison a trie branch makes after matching the first `start` letters of
      `word`: it yields `kind` exactly when the source begins with `word`. */
  lemma BranchWord(source: seq<byte>, start: nat, word: string, rest: string, kind: TokenType)
    requires 1 <= start <= |source| && start < |word| && rest == word[start..]
    requires forall j | 0 <= j < |rest| :: rest[j] as int < 256
    requires forall j | 0 <= j < start :: source[j] as char == word[j]
    ensures CheckKeyword(source, start, |word|, rest, kind) in {None, Some(Identifier), Some(kind)}
    ensures CheckKeyword(source, start, |word|, rest, kind) == Some(kind) || kind == Identifier
      <==> StartsWith(source, word) || kind == Identifier
  {
    if |word| <= |source| {
      SliceEqualsString(source, start, |word|, rest);
      assert forall j | start <= j < |word| :: word[j] == rest[j - start];
    }
  }

  // One lemma per branch of the trie: on the branch's first letters the trie yields the
  // branch's keyword exactly when the source begins with it, and otherwise yields
  // `Identifier` or, for a short source, nothing.

  lemma TrieAnd(source: seq<byte>, current: nat)
    requires 1 <= current <= |source| && source[0] as char == 'a'
    ensures IdentifierKind(source, current) in {None, Some(Identifier), Some(And)}
    ensures IdentifierKind(source, current) == Some(And) <==> StartsWith(source, "and")
  {
    assert IdentifierKind(source, current) == CheckKeyword(source, 1, 3, "nd", And);
    BranchWord(source, 1, "and", "nd", And);
  }

  lemma TrieClass(source: seq<byte>, current: nat)
    requires 1 <= current <= |source| && source[0] as char == 'c'
    ensures IdentifierKind(source, current) in {None, Some(Identifier), Some(Class)}
    ensures IdentifierKind(source, current) == Some(Class) <==> StartsWith(source, "class")
  {
    assert IdentifierKind(source, current) == CheckKeyword(source, 1, 5, "lass", Class);
    BranchWord(source, 1, "class", "lass", Class);
  }

  lemma TrieElse(source: seq<byte>, current: nat)
    requires 1 <= current <= |source| && source[0] as char == 'e'
    ensures IdentifierKind(source, current) in {None, Some(Identifier), Some(Else)}
    ensures IdentifierKind(source, current) == Some(Else) <==> StartsWith(source, "else")
  {
    assert IdentifierKind(source, current) == CheckKeyword(source, 1, 4, "lse", Else);
    BranchWord(source, 1, "else", "lse", Else);
  }

  lemma TrieFalse(source: seq<byte>, current: nat)
    requires 2 <= current <= |source| && source[0] as char == 'f' && source[1] as char == 'a'
    ensures IdentifierKind(source, current) in {None, Some(Identifier), Some(False)}
    ensures IdentifierKind(source, current) == Some(False) <==> StartsWith(source, "false")
  {
    assert IdentifierKind(source, current) == CheckKeyword(source, 2, 5, "lse", False);
    BranchWord(source, 2, "false", "lse", False);
  }

  lemma TrieFor(source: seq<byte>, current: nat)
    requires 2 <= current <= |source| && source[0] as char == 'f' && source[1] as char == 'o'
    ensures IdentifierKind(source, current) in {None, Some(Identifier), Some(For)}
    ensures IdentifierKind(source, current) == Some(For) <==> StartsWith(source, "for")
  {
    assert IdentifierKind(source, current) == CheckKeyword(source, 2, 3, "r", For);
    BranchWord(source, 2, "for", "r", For);
  }

  lemma TrieFun(source: seq<byte>, current: nat)
    requires 2 <= current <= |source| && source[0] as char == 'f' && source[1] as char == 'u'
    ensures IdentifierKind(source, current) in {None, Some(Identifier), Some(Fun)}
    ensures IdentifierKind(source, current) == Some(Fun) <==> StartsWith(source, "fun")
  {
    assert IdentifierKind(source, current) == CheckKeyword(source, 2, 3, "n", Fun);
    BranchWord(source, 2, "fun", "n", Fun);
  }

  lemma TrieIf(source: seq<byte>, current: nat)
    requires 1 <= current <= |source| && source[0] as char == 'i'
    ensures IdentifierKind(source, current) in {None, Some(Identifier), Some(If)}
    ensures IdentifierKind(source, current) == Some(If) <==> StartsWith(source, "if")
  {
    assert IdentifierKind(source, current) == CheckKeyword(source, 1, 2, "f", If);
    BranchWord(source, 1, "if", "f", If);
  }

  lemma TrieNil(source: seq<byte>, current: nat)
    requires 1 <= current <= |source| && source[0] as char == 'n'
    ensures IdentifierKind(source, current) in {None, Some(Identifier), Some(Nil)}
    ensures IdentifierKind(source, current) == Some(Nil) <==> StartsWith(source, "nil")
  {
    assert IdentifierKind(source, current) == CheckKeyword(source, 1, 3, "il", Nil);
    BranchWord(source, 1, "nil", "il", Nil);
  }

  lemma TrieOr(source: seq<byte>, current: nat)
    requires 1 <= current <= |source| && source[0] as char == 'o'
    ensures IdentifierKind(source, current) in {None, Some(Identifier), Some(Or)}
    ensures IdentifierKind(source, current) == Some(Or) <==> StartsWith(source, "or")
  {
    assert IdentifierKind(source, current) == CheckKeyword(source, 1, 2, "r", Or);
    BranchWord(source, 1, "or", "r", Or);
  }

  lemma TriePrint(source: seq<byte>, current: nat)
    requires 1 <= current <= |source| && source[0] as char == 'p'
    ensures IdentifierKind(source, current) in {None, Some(Identifier), Some(Print)}
    ensures IdentifierKind(source, current) == Some(Print) <==> StartsWith(source, "print")
  {
    assert IdentifierKind(source, current) == CheckKeyword(source, 1, 5, "rint", Print);
    BranchWord(source, 1, "print", "rint", Print);
  }

  lemma TrieReturn(source: seq<byte>, current: nat)
    requires 1 <= current <= |source| && source[0] as char == 'r'
    ensures IdentifierKind(source, current) in {None, Some(Identifier), Some(Return)}
    ensures IdentifierKind(source, current) == Some(Return) <==> StartsWith(source, "return")
  {
    assert IdentifierKind(source, current) == CheckKeyword(source, 1, 6, "eturn", Return);
    BranchWord(source, 1, "return", "eturn", Return);
  }

  lemma TrieSuper(source: seq<byte>, current: nat)
    requires 1 <= current <= |source| && source[0] as char == 's'
    ensures IdentifierKind(source, current) in {None, Some(Identifier), Some(Super)}
    ensures IdentifierKind(source, current) == Some(Super) <==> StartsWith(source, "super")
  {
    assert IdentifierKind(source, current) == CheckKeyword(source, 1, 5, "uper", Super);
    BranchWord(source, 1, "super", "uper", Super);
  }

  lemma TrieThis(source: seq<byte>, current: nat)
    requires 2 <= current <= |source| && source[0] as char == 't' && source[1] as char == 'h'
    ensures IdentifierKind(source, current) in {None, Some(Identifier), Some(This)}
    ensures IdentifierKind(source, current) == Some(This) <==> StartsWith(source, "this")
  {
    assert IdentifierKind(source, current) == CheckKeyword(source, 2, 4, "is", This);
    BranchWord(source, 2, "this", "is", This);
  }

  lemma TrieTrue(source: seq<byte>, current: nat)
    requires 2 <= current <= |source| && source[0] as char == 't' && source[1] as char == 'r'
    ensures IdentifierKind(source, current) in {None, Some(Identifier), Some(True)}
    ensures IdentifierKind(source, current) == Some(True) <==> StartsWith(source, "true")
  {
    assert IdentifierKind(source, current) == CheckKeyword(source, 2, 4, "ue", True);
    BranchWord(source, 2, "true", "ue", True);
  }

  lemma TrieVar(source: seq<byte>, current: nat)
    requires 1 <= current <= |source| && source[0] as char == 'v'
    ensures IdentifierKind(source, current) in {None, Some(Identifier), Some(Var)}
    ensures IdentifierKind(source, current) == Some(Var) <==> StartsWith(source, "var")
  {
    assert IdentifierKind(source, current) == CheckKeyword(source, 1, 3, "ar", Var);
    BranchWord(source, 1, "var", "ar", Var);
  }

  lemma TrieWhile(source: seq<byte>, current: nat)
    requires 1 <= current <= |source| && source[0] as char == 'w'
    ensures IdentifierKind(source, current) in {None, Some(Identifier), Some(While)}
    ensures IdentifierKind(source, current) == Some(While) <==> StartsWith(source, "while")
  {
    assert IdentifierKind(source, current) == CheckKeyword(source, 1, 5, "hile", While);
    BranchWord(source, 1, "while", "hile", While);
  }

  /** The quirk of the trie: a word that merely begins with a keyword is scanned as
      that keyword, so `andy` is `And` and `fork` is `For`. */
  lemma KeywordPrefixWins(src: seq<byte>, k: TokenType)
    requires |src| > 0 && forall i | 0 <= i < |src| :: IsIdentChar(src[i] as char)
    requires KeywordKind(k) && StartsWith(src, Spelling(k))
    ensures ScanToken(New(src)) == Scanned(Scanner(src, |src|, 1), Token(k, src, 1))
  {
    assert src[..|src|] == src;
    KeywordSpelling(k);
    IdentifierWord(src);
    ReservedPrefixIsKeyword(src, |src|, k);
  }

  /** Every keyword is spelled with at least two letters. */
  lemma KeywordSpelling(k: TokenType)
    requires KeywordKind(k)
    ensures |Spelling(k)| >= 2 && forall j | 0 <= j < |Spelling(k)| :: IsAlpha(Spelling(k)[j])
  {
  }

  /** An input made only of identifier characters, starting with a letter or `_`, is one
      identifier-or-keyword token spanning all of it. */
  lemma IdentifierWord(src: seq<byte>)
    requires |src| > 0 && IsIdentStart(src[0] as char)
    requires forall k | 0 <= k < |src| :: IsIdentChar(src[k] as char)
    ensures ScanToken(New(src)) ==
      match IdentifierKind(src, |src|)
      case None => SliceOutOfRange
      case Some(kind) => Scanned(Scanner(src, |src|, 1), Token(kind, src, 1))
  {
    FirstWord(src);
    assert ConsumeWhile(Scanner(src, 1, 1), IsIdentChar).current == |src|;
    assert src[..|src|] == src;
  }

  /** The short-tail quirk: an input that is a single letter opening a one-letter
      branch of the trie (every keyword initial but `f` and `t`) slices out of range. */
  lemma LoneLetterPanics(src: seq<byte>)
    requires |src| == 1 && src[0] as char in "aceinoprsvw"
    ensures ScanToken(New(src)) == SliceOutOfRange
  {
    FirstWord(src);
    assert ScanIdentifier(Scanner(src, 1, 1)) == SliceOutOfRange by {
      assert ConsumeWhile(Scanner(src, 1, 1), IsIdentChar).current == 1;
      ShortTrie(src);
    }
  }

  lemma ShortTrie(src: seq<byte>)
    requires |src| == 1 && src[0] as char in "aceinoprsvw"
    ensures IdentifierKind(src, 1) == None
  {
    match src[0] as char {
      case 'a' => assert CheckKeyword(src, 1, 3, "nd", And) == None;
      case 'c' => assert CheckKeyword(src, 1, 5, "lass", Class) == None;
      case 'e' => assert CheckKeyword(src, 1, 4, "lse", Else) == None;
      case 'i' => assert CheckKeyword(src, 1, 2, "f", If) == None;
      case 'n' => assert CheckKeyword(src, 1, 3, "il", Nil) == None;
      case 'o' => assert CheckKeyword(src, 1, 2, "r", Or) == None;
      case 'p' => assert CheckKeyword(src, 1, 5, "rint", Print) == None;
      case 'r' => assert CheckKeyword(src, 1, 6, "eturn", Return) == None;
      case 's' => assert CheckKeyword(src, 1, 5, "uper", Super) == None;
      case 'v' => assert CheckKeyword(src, 1, 3, "ar", Var) == None;
      case 'w' => assert CheckKeyword(src, 1, 5, "hile", While) == None;
    }
  }

  /** Input that starts with a letter or `_` is scanned from its first byte as an identifier. */
  lemma FirstWord(src: seq<byte>)
    requires |src| > 0 && IsIdentStart(src[0] as char)
    ensures ScanToken(New(src)) == ScanIdentifier(Scanner(src, 1, 1))
  {
    var s := New(src);
    StartsAtFirstByte(s);
    assert TokenStart(s) == Scanner(src, 1, 1);
    ScanTokenDispatch(s);
  }

  /** A fresh scanner over input that starts with a letter or `_` skips nothing. */
  lemma StartsAtFirstByte(s: Scanner)
    requires s.Valid() && s.current == 0 && |s.source| > 0 && IsIdentStart(s.source[0] as char)
    ensures SkipWhitespace(s) == s && Rest(s) == s.source
  {
    assert Peek(s) == s.source[0] as char;
  }
}

=== FILE: vm.dfy ===
/** The stack virtual machine of vm.rs: fetch, decode and execute over a byte code with
    a constant pool, on a stack of `STACK_MAX` slots addressed by a `top` index. */
module Machine {
  import opened Bytes
  import Scanning

  /** Number of slots in the value stack. */
  const STACK_MAX: nat := 256

  // ---------------------------------------------------------------------------
  // Opcodes and their byte encoding
  // ---------------------------------------------------------------------------

  /** The seven opcodes `run` dispatches on, in the order of its match arms. */
  datatype Opcode = Constant | Add | Subtract | Multiply | Divide | Negate | Return

  function Encode(op: Opcode): (b: byte)
    ensures b < 7
  {
    match op
    case Constant => 0
    case Add => 1
    case Subtract => 2
    case Multiply => 3
    case Divide => 4
    case Negate => 5
    case Return => 6
  }

  /** The `try_into` from a byte to an opcode: defined exactly on the encodings. */
  function Decode(b: byte): (r: Option<Opcode>)
    ensures r.Some? <==> b < 7
    ensures r.Some? ==> Encode(r.value) == b
  {
    if b == 0 then Some(Constant)
    else if b == 1 then Some(Add)
    else if b == 2 then Some(Subtract)
    else if b == 3 then Some(Multiply)
    else if b == 4 then Some(Divide)
    else if b == 5 then Some(Negate)
    else if b == 6 then Some(Return)
    else None
  }

  lemma DecodeEncode(op: Opcode)
    ensures Decode(Encode(op)) == Some(op)
  {
  }

  // ---------------------------------------------------------------------------
  // Values, chunks and machine state
  // ---------------------------------------------------------------------------

  /** The arithmetic of the value type, left uninterpreted: the operators `+ - * /` and
      unary `-`. */
  datatype Arith<!V> = Arith(add: (V, V) -> V, sub: (V, V) -> V, mul: (V, V) -> V,
                            div: (V, V) -> V, neg: V -> V)

  /** The chunk the machine executes: byte code and its constant pool. */
  datatype ByteChunk<V> = ByteChunk(code: seq<byte>, constants: seq<V>)

  /** The machine: the chunk, the instruction index `ip`, the stack slots and the index
      `top` of the first free slot. */
  datatype Vm<V> = Vm(chunk: ByteChunk<V>, ip: nat, slots: seq<V>, top: nat) {
    predicate Valid() {
      |slots| == STACK_MAX && top <= STACK_MAX && ip <= |chunk.code|
    }
  }

  /** The live values, bottom first. */
  function Stack<V>(vm: Vm<V>): (s: seq<V>)
    requires vm.Valid()
  {
    vm.slots[..vm.top]
  }

  /** `init` and `reset_stack`: the stack becomes empty; nothing else changes. */
  function Init<V>(vm: Vm<V>): (r: Vm<V>)
    requires vm.Valid()
    ensures r.Valid() && Stack(r) == []
    ensures r.chunk == vm.chunk && r.ip == vm.ip
  {
    vm.(top := 0)
  }

  /** `push`: the source does not check for a full stack, so neither may its caller. */
  function Push<V>(vm: Vm<V>, value: V): (r: Vm<V>)
    requires vm.Valid() && vm.top < STACK_MAX
    ensures r.Valid() && Stack(r) == Stack(vm) + [value]
    ensures r.chunk == vm.chunk && r.ip == vm.ip
  {
    var r := vm.(slots := vm.slots[vm.top := value], top := vm.top + 1);
    assert Stack(r) == Stack(vm) + [value];
    r
  }

  /** `pop`: the source does not check for an empty stack, so neither may its caller. */
  function Pop<V>(vm: Vm<V>): (r: (Vm<V>, V))
    requires vm.Valid() && vm.top > 0
    ensures r.0.Valid() && Stack(r.0) + [r.1] == Stack(vm)
    ensures r.0.chunk == vm.chunk && r.0.ip == vm.ip
  {
    (vm.(top := vm.top - 1), vm.slots[vm.top - 1])
  }

  /** A push undone by a pop gives back the pushed value and the stack as it was. */
  lemma PushThenPop<V>(vm: Vm<V>, value: V)
    requires vm.Valid() && vm.top < STACK_MAX
    ensures var (after, popped) := Pop(Push(vm, value));
      popped == value && Stack(after) == Stack(vm) && after.top == vm.top
  {
    var (after, popped) := Pop(Push(vm, value));
    assert Stack(after) + [popped] == Stack(vm) + [value];
    assert Stack(after) == (Stack(after) + [popped])[..vm.top];
  }

  /** `read_byte`: the byte at `ip`, with `ip` moved past it. */
  function ReadByte<V>(vm: Vm<V>): (r: (Vm<V>, byte))
    requires vm.Valid() && vm.ip < |vm.chunk.code|
    ensures r.1 == vm.chunk.code[vm.ip] && r.0.ip == vm.ip + 1
    ensures r.0.Valid() && r.0.chunk == vm.chunk && Stack(r.0) == Stack(vm)
  {
    (vm.(ip := vm.ip + 1), vm.chunk.code[vm.ip])
  }

  /** `read_constant`: reads an index byte and looks it up in the constant pool; `None`
      where the source's `unwrap` panics. */
  function ReadConstant<V>(vm: Vm<V>): (r: (Vm<V>, Option<V>))
    requires vm.Valid() && vm.ip < |vm.chunk.code|
    ensures r.0.ip == vm.ip + 1
    ensures r.0.Valid() && r.0.chunk == vm.chunk && Stack(r.0) == Stack(vm)
    ensures r.1.Some? <==> vm.chunk.code[vm.ip] < |vm.chunk.constants|
    ensures r.1.Some? ==> r.1.value == vm.chunk.constants[vm.chunk.code[vm.ip]]
  {
    var (next, index) := ReadByte(vm);
    if index < |vm.chunk.constants| then (next, Some(vm.chunk.constants[index]))
    else (next, None)
  }

  // ---------------------------------------------------------------------------
  // One step of `run`
  // ---------------------------------------------------------------------------

  /** Why a run cannot go on. The first two are panics of the source (`unwrap` on an
      unknown opcode or a missing constant); the others are undefined behaviour there
      (a pointer past the stack or past the code). */
  datatype Fault =
    | InvalidOpcode(opcode: byte)
    | ConstantOutOfRange(index: byte)
    | StackOverflow
    | StackUnderflow
    | CodeOverrun

  datatype StepResult<V> = Next(vm: Vm<V>) | Halt(vm: Vm<V>, value: V) | Failed(fault: Fault)

  /** The byte at `ip` exists and indexes the constant pool. */
  predicate IndexInPool<V>(vm: Vm<V>) {
    vm.ip < |vm.chunk.code| && vm.chunk.code[vm.ip] < |vm.chunk.constants|
  }

  /** `Constant`, after its opcode byte: read the index byte and push that constant. */
  function ExecConstant<V>(vm: Vm<V>): (r: StepResult<V>)
    requires vm.Valid()
    ensures vm.ip == |vm.chunk.code| ==> r == Failed(CodeOverrun)
    ensures vm.ip < |vm.chunk.code| && vm.chunk.code[vm.ip] >= |vm.chunk.constants| ==>
      r == Failed(ConstantOutOfRange(vm.chunk.code[vm.ip]))
    ensures IndexInPool(vm) && vm.top == STACK_MAX ==> r == Failed(StackOverflow)
    ensures IndexInPool(vm) && vm.top < STACK_MAX ==>
      r.Next? && r.vm.Valid() && r.vm.chunk == vm.chunk && r.vm.ip == vm.ip + 1
      && Stack(r.vm) == Stack(vm) + [vm.chunk.constants[vm.chunk.code[vm.ip]]]
  {
    if vm.ip == |vm.chunk.code| then Failed(CodeOverrun)
    else
      var (next, constant) := ReadConstant(vm);
      match constant
      case None => Failed(ConstantOutOfRange(vm.chunk.code[vm.ip]))
      case Some(value) =>
        if next.top == STACK_MAX then Failed(StackOverflow) else Next(Push(next, value))
  }

  /** `binary_op!`: pop `b`, pop `a`, push `a op b`. */
  function ExecBinary<V>(vm: Vm<V>, op: (V, V) -> V): (r: StepResult<V>)
    requires vm.Valid()
    ensures vm.top < 2 ==> r == Failed(StackUnderflow)
    ensures vm.top >= 2 ==>
      r.Next? && r.vm.Valid() && r.vm.chunk == vm.chunk
      && r.vm.ip == vm.ip && r.vm.top == vm.top - 1
      && Stack(r.vm)[..(vm.top - 2)] == Stack(vm)[..(vm.top - 2)]
      && Stack(r.vm)[vm.top - 2] == op(Stack(vm)[vm.top - 2], Stack(vm)[vm.top - 1])
  {
    if vm.top < 2 then Failed(StackUnderflow)
    else
      var (afterB, b) := Pop(vm);
      var (afterA, a) := Pop(afterB);
      assert Stack(afterA) == Stack(vm)[..vm.top - 2] by {
        assert Stack(afterA) + [a] + [b] == Stack(vm);
      }
      Next(Push(afterA, op(a, b)))
  }

  /** `Negate`: replace the top value by its negation. */
  function ExecNegate<V>(vm: Vm<V>, neg: V -> V): (r: StepResult<V>)
    requires vm.Valid()
    ensures vm.top == 0 ==> r == Failed(StackUnderflow)
    ensures vm.top > 0 ==>
      r.Next? && r.vm.Valid() && r.vm.chunk == vm.chunk
      && r.vm.ip == vm.ip && r.vm.top == vm.top
      && Stack(r.vm)[..(vm.top - 1)] == Stack(vm)[..(vm.top - 1)]
      && Stack(r.vm)[vm.top - 1] == neg(Stack(vm)[vm.top - 1])
  {
    if vm.top == 0 then Failed(StackUnderflow)
    else
      var (popped, value) := Pop(vm);
      assert Stack(popped) == Stack(vm)[..vm.top - 1] by {
        assert Stack(popped) + [value] == Stack(vm);
      }
      Next(Push(popped, neg(value)))
  }

  /** `Return`: pop the top value (the one the source prints) and stop. */
  function ExecReturn<V>(vm: Vm<V>): (r: StepResult<V>)
    requires vm.Valid()
    ensures vm.top == 0 ==> r == Failed(StackUnderflow)
    ensures vm.top > 0 ==>
      r.Halt? && r.vm.Valid() && r.vm.chunk == vm.chunk
      && r.value == Stack(vm)[vm.top - 1] && Stack(r.vm) == Stack(vm)[..(vm.top - 1)]
  {
    if vm.top == 0 then Failed(StackUnderflow)
    else
      var (popped, value) := Pop(vm);
      assert Stack(popped) == (Stack(popped) + [value])[..vm.top - 1];
      Halt(popped, value)
  }

  /** The operator a binary opcode applies. */
  function BinaryOperator<V>(ar: Arith<V>, op: Opcode): (V, V) -> V
    requires op in {Add, Subtract, Multiply, Divide}
  {
    match op
    case Add => ar.add
    case Subtract => ar.sub
    case Multiply => ar.mul
    case Divide => ar.div
  }

  /** One iteration of the `run` loop: fetch a byte, decode it and execute it. Every step
      that goes on moves `ip` forward. */
  function Step<V>(ar: Arith<V>, vm: Vm<V>): (r: StepResult<V>)
    requires vm.Valid()
    ensures r.Next? ==> r.vm.Valid() && r.vm.chunk == vm.chunk && vm.ip < r.vm.ip
    ensures r.Halt? ==> vm.ip < |vm.chunk.code| && vm.chunk.code[vm.ip] == Encode(Return)
    ensures vm.ip == |vm.chunk.code| ==> r == Failed(CodeOverrun)
    ensures vm.ip < |vm.chunk.code| && Decode(vm.chunk.code[vm.ip]).None? ==>
      r == Failed(InvalidOpcode(vm.chunk.code[vm.ip]))
  {
    if vm.ip == |vm.chunk.code| then Failed(CodeOverrun)
    else
      var (next, b) := ReadByte(vm);
      match Decode(b)
      case None => Failed(InvalidOpcode(b))
      case Some(op) =>
        match op
        case Constant => ExecConstant(next)
        case Negate => ExecNegate(next, ar.neg)
        case Return => ExecReturn(next)
        case _ => ExecBinary(next, BinaryOperator(ar, op))
  }

  // ---------------------------------------------------------------------------
  // The run loop
  // ---------------------------------------------------------------------------

  /** How a run ends: `Returned` with the value `Return` popped and printed, or stopped
      by a fault. */
  datatype Outcome<V> = Returned(value: V) | Stopped(fault: Fault)

  /** The `loop` of `run`, from the current state; it ends because every step that goes
      on moves `ip` forward through a finite code. */
  function Execute<V>(ar: Arith<V>, vm: Vm<V>): (r: Outcome<V>)
    requires vm.Valid()
    ensures r.Returned? ==> exists j | vm.ip <= j < |vm.chunk.code| :: vm.chunk.code[j] == Encode(Return)
    decreases |vm.chunk.code| - vm.ip
  {
    match Step(ar, vm)
    case Next(next) => Execute(ar, next)
    case Halt(_, value) =>
      assert vm.chunk.code[vm.ip] == Encode(Return);
      Returned(value)
    case Failed(fault) => Stopped(fault)
  }

  /** `run` on `chunk`, from the first byte with an empty stack: the reference semantics
      of the whole chunk, whatever state the machine was in before. */
  function Run<V>(ar: Arith<V>, vm: Vm<V>, chunk: ByteChunk<V>): (r: Outcome<V>)
    requires vm.Valid()
    ensures r == Eval(ar, chunk, 0, [])
    ensures chunk.code == [] ==> r == Stopped(CodeOverrun)
    ensures r.Returned? ==> Encode(Return) in chunk.code
  {
    var start := Init(vm.(chunk := chunk, ip := 0));
    ExecuteMatchesEval(ar, start);
    Execute(ar, start)
  }

  // ---------------------------------------------------------------------------
  // A reference semantics on a plain list stack
  // ---------------------------------------------------------------------------

  /** The byte code's meaning on a stack kept as a list of values, bottom first, with the
      same faults; the slot array and `top` index of `Vm` must agree with it. */
  function Eval<V>(ar: Arith<V>, chunk: ByteChunk<V>, ip: nat, stack: seq<V>): Outcome<V>
    requires ip <= |chunk.code| && |stack| <= STACK_MAX
    decreases |chunk.code| - ip
  {
    if ip == |chunk.code| then Stopped(CodeOverrun)
    else
      var n := |stack|;
      match Decode(chunk.code[ip])
      case None => Stopped(InvalidOpcode(chunk.code[ip]))
      case Some(Constant) =>
        if ip + 1 == |chunk.code| then Stopped(CodeOverrun)
        else if chunk.code[ip + 1] >= |chunk.constants| then
          Stopped(ConstantOutOfRange(chunk.code[ip + 1]))
        else if n == STACK_MAX then Stopped(StackOverflow)
        else Eval(ar, chunk, ip + 2, stack + [chunk.constants[chunk.code[ip + 1]]])
      case Some(Negate) =>
        if n == 0 then Stopped(StackUnderflow)
        else Eval(ar, chunk, ip + 1, stack[..n - 1] + [ar.neg(stack[n - 1])])
      case Some(Return) =>
        if n == 0 then Stopped(StackUnderflow) else Returned(stack[n - 1])
      case Some(op) =>
        if n < 2 then Stopped(StackUnderflow)
        else Eval(ar, chunk, ip + 1, stack[..n - 2] + [BinaryOperator(ar, op)(stack[n - 2], stack[n - 1])])
  }

  /** The machine computes what the reference semantics says, from any valid state. */
  lemma {:induction false} ExecuteMatchesEval<V>(ar: Arith<V>, vm: Vm<V>)
    requires vm.Valid()
    ensures Execute(ar, vm) == Eval(ar, vm.chunk, vm.ip, Stack(vm))
    decreases |vm.chunk.code| - vm.ip
  {
    var code := vm.chunk.code;
    if vm.ip < |code| {
      var next := vm.(ip := vm.ip + 1);
      var s := Stack(vm);
      var n := |s|;
      match Decode(code[vm.ip]) {
        case None =>
        case Some(op) =>
          match op {
            case Constant =>
              var r := ExecConstant(next);
              if r.Next? {
                ExecuteMatchesEval(ar, r.vm);
              }
            case Negate =>
              var r := ExecNegate(next, ar.neg);
              if r.Next? {
                assert Stack(r.vm) == s[..n - 1] + [ar.neg(s[n - 1])];
                ExecuteMatchesEval(ar, r.vm);
              }
            case Return =>
            case _ =>
              var f := BinaryOperator(ar, op);
              var r := ExecBinary(next, f);
              if r.Next? {
                assert Stack(r.vm) == s[..n - 2] + [f(s[n - 2], s[n - 1])];
                ExecuteMatchesEval(ar, r.vm);
              }
          }
      }
    }
  }

  // ---------------------------------------------------------------------------
  // Properties of single instructions
  // ---------------------------------------------------------------------------

  /** `Constant` takes two bytes and pushes the constant its index byte names. */
  lemma StepConstant<V>(ar: Arith<V>, vm: Vm<V>)
    requires vm.Valid() && vm.ip + 1 < |vm.chunk.code| && vm.chunk.code[vm.ip] == Encode(Constant)
    requires vm.chunk.code[vm.ip + 1] < |vm.chunk.constants| && vm.top < STACK_MAX
    ensures var r := Step(ar, vm);
      r.Next? && r.vm.ip == vm.ip + 2
      && Stack(r.vm) == Stack(vm) + [vm.chunk.constants[vm.chunk.code[vm.ip + 1]]]
  {
  }

  /** A binary opcode combines the second value from the top (left operand) with the top
      value (right operand), leaving one value in their place. */
  lemma StepBinary<V>(ar: Arith<V>, vm: Vm<V>, op: Opcode)
    requires vm.Valid() && vm.ip < |vm.chunk.code| && vm.top >= 2
    requires op in {Add, Subtract, Multiply, Divide} && vm.chunk.code[vm.ip] == Encode(op)
    ensures var r := Step(ar, vm); var s := Stack(vm);
      r.Next? && r.vm.ip == vm.ip + 1
      && Stack(r.vm) == s[..(vm.top - 2)] + [BinaryOperator(ar, op)(s[vm.top - 2], s[vm.top - 1])]
  {
    var r := Step(ar, vm);
    assert r == ExecBinary(vm.(ip := vm.ip + 1), BinaryOperator(ar, op));
  }

  /** `Return` with an empty stack is a fault; otherwise it ends the run with the top
      value, whatever code follows. */
  lemma ReturnEndsRun<V>(ar: Arith<V>, vm: Vm<V>)
    requires vm.Valid() && vm.ip < |vm.chunk.code| && vm.chunk.code[vm.ip] == Encode(Return)
    ensures vm.top == 0 ==> Execute(ar, vm) == Stopped(StackUnderflow)
    ensures vm.top > 0 ==> Execute(ar, vm) == Returned(Stack(vm)[vm.top - 1])
  {
  }

  /** The smallest complete program: load two constants, combine them, return. The left
      operand is the constant loaded first. */
  lemma TwoConstants<V>(ar: Arith<V>, vm: Vm<V>, i: byte, j: byte, op: Opcode)
    requires vm.Valid() && op in {Add, Subtract, Multiply, Divide}
    requires i < |vm.chunk.constants| && j < |vm.chunk.constants|
    requires vm.chunk.code == [Encode(Constant), i, Encode(Constant), j, Encode(op), Encode(Return)]
    ensures Run(ar, vm, vm.chunk)
      == Returned(BinaryOperator(ar, op)(vm.chunk.constants[i], vm.chunk.constants[j]))
  {
    var start := Init(vm.(ip := 0));
    ExecuteMatchesEval(ar, start);
    var c := vm.chunk;
    var x := c.constants[i];
    var y := c.constants[j];
    assert c.code[0] == c.code[2] == 0 && c.code[1] == i && c.code[3] == j;
    assert Stack(start) == [] && [] + [x] == [x] && [x] + [y] == [x, y];
    assert Eval(ar, c, 0, []) == Eval(ar, c, 2, [x]);
    assert Eval(ar, c, 2, [x]) == Eval(ar, c, 4, [x, y]);
    assert Eval(ar, c, 4, [x, y]) == Eval(ar, c, 5, [BinaryOperator(ar, op)(x, y)]);
  }

  // ---------------------------------------------------------------------------
  // interpret
  // ---------------------------------------------------------------------------

  /** The error kinds `interpret` may report; `interpret` (src/vm.rs:64-67) never returns either. */
  datatype InterpretError = CompileError | RuntimeError

  datatype InterpretResult = InterpretOk | InterpretErr(error: InterpretError)

  /** `interpret`: run the compiler's token loop over the source, then report success.
      `None` stands for the panic the keyword trie raises on a short tail; otherwise the
      result is always `Ok`. */
  function Interpret(source: seq<byte>): (r: Option<InterpretResult>)
    ensures r.Some? <==> Scanning.Tokens(Scanning.New(source)).Some?
    ensures r != Some(InterpretErr(CompileError)) && r != Some(InterpretErr(RuntimeError))
  {
    match Scanning.Tokens(Scanning.New(source))
    case None => None
    case Some(_) => Some(InterpretOk)
  }
}
